=== FILE: README.md ===
# Matchmaking and session state of the MMCOS community server

This project is a Dafny model of the matchmaking core of a community
replacement for the Micro Machines World Series online service (MMCOS).
The model covers:

- the in-memory `GameSession` registry of `game-session.js`: players keyed
  by platform id, games keyed by session id, and the set of race keys in use;
- the `server.js` handlers `EnterMatchmaking2`, `CancelMatchmaking` and
  `AddPoints`, together with the season lookup of the server-status
  document;
- the older `EnterMatchmaking2` and `AddPoints` handlers of `index.js`.

Every mutator and handler is a pure function from the state before the call
to the state after it and its reply. The three kinds of input the handlers
cannot see are explicit parameters:

- The clock is `now`, in milliseconds since the epoch.
- The values `Math.random` would produce are given as data:
  - `CreateDraw` holds the session id, the race-key candidates of the retry
    loop and the generated lobby ids of one `createGame`.
  - `Entropy` holds the draws of one matchmaking request.
  - `randomTotal` is the total reported for an unknown requester.
- The client address is `ip`.

A thrown exception is an `Err` result, or the `InternalError` reply.
State changed before the throw is kept, as it is in JavaScript.

Modules:

- `Common` holds optional values, errors, and JavaScript's `||`,
  `substring` and truthiness.
- `GameSession` is the registry class.
- `RegistryInvariant` states the registry invariant `Valid` and proves that
  every mutator preserves it.
- `Season` is the season schedule.
- `Identity` covers platform ids from tokens and addresses.
- `Scoring` is the shared end-of-race scoring.
- `Matchmaking` holds the shared join-or-create step and the reply type.
- `Server` models the `server.js` handlers.
- `Legacy` models the `index.js` handlers.

JavaScript `Map` iteration order matters in two places. `getAvailableGames`
sorts with a stable sort, so ties keep insertion order; the model's sort is
an insertion sort proved stable (`GameSession.SortNewestStable`,
`GameSession.GetAvailableGamesStable`). `AddPoints` ends the
first game holding the race key. The registry therefore keeps the games'
insertion order in `order`.

`server.js` reads the session-token map through `getPlatformIdByToken` and
`sessionTokenMap`, but the `GameSession` class defines neither. The model
keeps that map as an explicit `map<string, string>` in `Server.ServerState`.

## Model

| member | source | states |
|---|---|---|
| `Common.OrElseSettles` | server.js:577 | a non-empty fallback such as `'Race'` always yields a non-empty (truthy) rule set, and applying the same fallback twice changes nothing |
| `Common.Substring` | game-session.js:36 | `substring` with both ends clamped to the length: the exact slice when in range, the whole tail when only the end is past the length, empty when the start is past the end |
| `Common.Sanitize` | server.js:697 | the address regex replaces exactly the characters outside `[a-zA-Z0-9]` with `_`, one for one (characters counted as Unicode scalar values) |
| `Common.SanitizeIdempotent` | server.js:697 | a sanitised address holds only letters, digits and `_`, and sanitising it again changes nothing |
| `GameSession.Ids` | game-session.js:121 | the platform ids of a roster, position by position |
| `GameSession.FindEntry` | game-session.js:121 | `find` by platform id: none exactly when the id is not on the roster; otherwise the first roster entry with that id, every earlier entry carrying another id |
| `GameSession.FindEntryAt` | game-session.js:121 | on a roster without repeated ids, `find` returns the very entry at that id's position |
| `GameSession.GenerateRaceKey` | game-session.js:16-23 | the retry loop returns a key not yet in use: the first unused candidate, with every earlier candidate already in use |
| `GameSession.RegisterPlayer` | game-session.js:31-49 | registration replaces the whole record: it is online with no current game; an existing record keeps only wins and points and counts one more game; a new one starts at zero games and wins with 1000..5999 points; nothing else changes |
| `GameSession.CreateGame` | game-session.js:52-97 | the race key is consumed before the host check, so an unknown host throws after taking a key; otherwise a waiting game under the drawn id with the host as sole roster entry (team 0, host), the defaults `Race`/`Race`/`NotRanked`, and the client lobby ids when truthy; the host's current game is set; a reused session id keeps its place in the map order |
| `GameSession.JoinGame` | game-session.js:100-142 | the four throws in source order (missing game, missing player, full, not waiting); a rostered player gets the game back with nothing changed; otherwise the player is appended as non-host on team `length / 4` and its current game is set; the roster never exceeds the maximum and stays free of repeats |
| `GameSession.Matching` | game-session.js:148-156 | the filter keeps exactly the waiting, non-full games that match the truthy filters, and only games of the map |
| `GameSession.MatchingDistinct` | game-session.js:148-156 | filtering a key order without repeats never lists one session twice |
| `GameSession.InsertNewest` | game-session.js:158 | one insertion step of the newest-first sort keeps the elements as a multiset |
| `GameSession.InsertNewestPosition` | game-session.js:158 | the insertion step is stable: the inserted game goes right after the strictly newer games, ahead of every game created at the same time, and the rest keep their order |
| `GameSession.SortNewest` | game-session.js:158 | the sort is a permutation of its input |
| `GameSession.SortNewestStable` | game-session.js:158 | the sort is stable: the games created at any one instant come out in the order they went in |
| `GameSession.InsertNewestSameTime` | game-session.js:158 | an insertion puts the inserted game ahead of those created at the same instant and keeps their order |
| `GameSession.NewestFirstTail` | game-session.js:158 | the tail of a newest-first sequence is newest first, and its head is no older than any of its elements |
| `GameSession.InsertNewestSorted` | game-session.js:158 | inserting into a newest-first sequence keeps it newest first |
| `GameSession.InsertNewestDistinct` | game-session.js:158 | inserting a new session keeps the sessions distinct |
| `GameSession.SortNewestSorted` | game-session.js:158 | the sort result is newest first and repeats no session its input did not repeat |
| `GameSession.GetAvailableGames` | game-session.js:145-159 | exactly the available games of the registry, newest first, each once, each the game stored under its own id |
| `GameSession.GetAvailableGamesStable` | game-session.js:145-159 | available games created at the same instant are listed in map order, so the one `joinGame` takes among equally new games is the first in the map |
| `GameSession.StartGame` | game-session.js:162-173 | only a missing game throws; any other game, a finished one included, becomes active with the start time |
| `GameSession.PlacementPoints` | game-session.js:197 | never below 10: exactly `100 - 10·position` down to position 9, and exactly 10 from position 9 on |
| `GameSession.PlacementPointsMonotone` | game-session.js:197 | a better placing never earns fewer points |
| `GameSession.FindStanding` | game-session.js:195 | `results.find` by platform id: the first matching standing, or none when no standing has that id |
| `GameSession.Settled` | game-session.js:188-206 | a settled roster player has one more game, no current game, the placement points of its first matching result (none without one) and a win exactly for first place; its id, name, token, join time, online flag, level and prestige are untouched |
| `GameSession.SettleRoster` | game-session.js:187-208 | the roster walk never adds or removes a player record, and never touches a record's id, name, token, join time, online flag, level or prestige |
| `GameSession.SettleRosterEffect` | game-session.js:187-208 | on a roster without repeats each registered roster player is settled exactly once and every other record is unchanged |
| `GameSession.EndGame` | game-session.js:176-212 | a missing game throws; otherwise the game is finished, stamped and holds the results; no player's id, name, token, join time, online flag, level or prestige changes; each registered roster player gets one more game, no current game, placement points if it has a result and a win for position 1; everyone else is unchanged |
| `GameSession.WithoutIds` | game-session.js:238-239 | deleting keys from the map order removes exactly those keys and keeps the order free of repeats |
| `GameSession.WithoutIdsAppend` | game-session.js:238-239 | deleting works piece by piece over the map order, so the keys that stay keep their insertion order |
| `GameSession.WithoutIdsSingle` | game-session.js:238-239 | a single key stays exactly when it is not deleted |
| `GameSession.CleanupOldGames` | game-session.js:234-244 | removes exactly the games finished more than an hour before `now`, and releases exactly their race keys; a game that is not finished, or that has no end time, is never removed |
| `GameSession.StatusPartition` | game-session.js:248-251 | every game has exactly one of the three statuses, so the three counts add up to the number of games |
| `GameSession.GetServerStats` | game-session.js:247-264 | the status counts partition the games; the online count is the number of players marked online, all players when every one is online and zero when none is |
| `RegistryInvariant.EmptyValid` | game-session.js:3-8 | the empty registry of a new process satisfies the invariant |
| `RegistryInvariant.RegisterPreservesValid` | game-session.js:31-49 | registration keeps the invariant: game-map keys agree with their order and ids; rosters are free of repeats and within the maximum; race keys are distinct and recorded; a current-game reference names a live, unended game that rosters its player |
| `RegistryInvariant.CreatePreservesValid` | game-session.js:52-97 | creating under an unused session id keeps the invariant |
| `RegistryInvariant.JoinPreservesValid` | game-session.js:100-142 | joining keeps the invariant |
| `RegistryInvariant.StartPreservesValid` | game-session.js:162-173 | starting keeps the invariant |
| `RegistryInvariant.EndPreservesValid` | game-session.js:176-212 | ending keeps the invariant, because every reference to the ended game is cleared |
| `RegistryInvariant.CleanupPreservesValid` | game-session.js:234-244 | the sweep keeps the invariant: no reference can name a game that has ended |
| `RegistryInvariant.JoinIdempotent` | game-session.js:112-122 | a second join by the same player returns the same game and changes nothing, unless the first join filled the game, in which case the second throws `GameFull` |
| `RegistryInvariant.CleanupIdempotent` | game-session.js:234-244 | a second sweep at the same instant removes nothing more |
| `RegistryInvariant.RegisterHistory` | game-session.js:31-49 | after repeated registrations of one id, the record counts one game per re-registration, keeps the original wins and points, and has the last display name |
| `Season.FirstCovering` | server.js:131-137 | the scan yields a season exactly when some window contains the instant, and that season is the season of such a window |
| `Season.CurrentSeason` | server.js:118-139 | the current season is between 46 and 51 |
| `Season.ScheduleChronological` | server.js:121-128 | the schedule windows are in order and do not overlap |
| `Season.FirstCoveringIsCovering` | server.js:131-137 | in a chronological schedule the first covering window is the covering window |
| `Season.CurrentSeasonSpec` | server.js:118-139 | inside a window the season is that window's season; outside every window it is 46 |
| `Season.ReportedSeason` | server.js:141-142 | with the season system off the status document reports 45; otherwise a scheduled season |
| `Identity.FallbackId` | server.js:697-698 | the fallback identity is `player_` and the sanitised address, which contains only letters, digits and `_` |
| `Identity.FallbackIdSame` | server.js:697-698 | two addresses share a fallback identity exactly when they sanitise alike |
| `Identity.GuestNameOfFallback` | server.js:700 | the guest name of a fallback identity is `Player_` and the first eight characters of the sanitised address |
| `Identity.GuestNameOfToken` | index.js:236 | the guest name of a `steam_` identity skips the token's first character |
| `Identity.LookupIdentity` | server.js:893-904 | the mapped platform id when the token is mapped to a non-empty id, and the fallback identity otherwise |
| `Identity.LegacyPlatformId` | index.js:224-232 | `steam_` and the first sixteen token characters for a truthy token, otherwise the fallback identity |
| `Identity.LegacyTokenPrefixCollision` | index.js:227 | two tokens that agree on their first sixteen characters name the same player |
| `Identity.LegacyIdentitiesDisjoint` | index.js:224-232 | a token identity never equals an address identity |
| `Scoring.Rank` | server.js:1041 | the rank is at least 1, equals the number of whole hundreds of a total of 100 or more, and is 1 below 200 |
| `Scoring.Division` | server.js:1042 | the division is at most 6, not negative for a non-negative rank, the tens of a rank below 70, and 6 from rank 60 on |
| `Scoring.RankDivisionMonotone` | server.js:1041-1042 | more points never give a lower rank or a lower division |
| `Scoring.RosterStandings` | server.js:1023-1027 | each roster entry is placed at its index plus one, with the recorded points `max(100 - 20·index, 10)` of its index |
| `Scoring.RecordedPoints` | server.js:1026 | never below 10: exactly `100 - 20·index` up to index 4, and 10 from index 5 on |
| `Scoring.RecordedPointsNotAwarded` | server.js:1023-1029 | the recorded points differ from the placement points `endGame` awards: 100 recorded and 90 awarded for the host, equal at 80 for the second place, lower from the third to the eighth, both 10 from the ninth |
| `Scoring.RosterStandingAt` | server.js:1023-1029 | on a roster without repeats each player's result is its own roster place, with the recorded points of that place |
| `Scoring.FindInOrder` | server.js:1021-1033 | the first game in map order holding the race key: every earlier entry lacks it; none when no game in the order holds it |
| `Scoring.FindByRaceKey` | server.js:1021-1033 | an absent key ends no game; a found session holds the key and no game earlier in the map order does; when none is found, no game holds it |
| `Scoring.Credit` | server.js:1012-1018 | the requester's points grow by the submitted points, and the level and prestige are set; nothing else changes, and an unknown requester changes nothing |
| `Scoring.ScoreRace` | server.js:1012-1042 | the reply carries the requester's total after the race, or the random total for an unknown requester, with rank and division derived from it and season 45; a registered requester ends with the submitted level and prestige, even when its race is ended; the game holding the race key is finished with the roster order as results; no player, key or order entry is added or removed |
| `Scoring.ScoreRaceSettles` | server.js:1021-1033 | the host (first roster entry) gets the win; the player at roster place `i` gets `PlacementPoints(i + 1)` more points (plus the submitted points if it is the requester), one more game and no current game; players off the roster keep their records |
| `Scoring.ScoreRacePreservesValid` | server.js:1012-1033 | scoring a race keeps the registry invariant |
| `Matchmaking.JoinOrCreate` | server.js:778-821 | the step fails exactly when the requester is unregistered; race keys are never released; only the requester's current game changes among player records; a returned game is waiting and rosters the requester |
| `Matchmaking.JoinOrCreateStored` | server.js:778-821 | the game returned is the game stored under its session id |
| `Matchmaking.NewestAvailable` | server.js:779-784 | the game joined is stored, available, and no available game is newer |
| `Matchmaking.JoinOrCreateJoins` | server.js:781-786 | with a game available the requester joins the newest one without consuming a race key; the roster only grows at its end; a new joiner is appended as non-host on team `length / 4` |
| `Matchmaking.JoinOrCreateCreates` | server.js:788-791 | with no game available the requester hosts a new waiting game under the first draw's session id, with a fresh race key and the requested rule set and ranking |
| `Matchmaking.JoinOrCreatePreservesValid` | server.js:778-821 | with unused session ids in the draws, the join-or-create step keeps the invariant |
| `Server.ResolveIdentity` | server.js:688-727 | the request is refused exactly when its token maps to an unregistered player, and that token is then dropped; a mapped known player, or an address already registered without a token, leaves the state unchanged; an unmapped token re-registers the fallback identity with the token, one more game and the same points and wins |
| `Server.StaleMonotone` | server.js:749-753 | a game stale at one instant is stale at every later one, and it is stale only once more than five minutes have passed since the instant its age counts from |
| `Server.StaleCountsFromStart` | server.js:749-753 | an active game with a nonzero start time is stale exactly when more than five minutes have passed since its start, whatever its creation time |
| `Server.ReuseCurrentGame` | server.js:736-772 | the requester goes back to its current game exactly when it is waiting, or active and at most five minutes old, and then nothing changes; otherwise the reference is cleared, and a stale game is marked finished while all others stay as they were |
| `Server.ReplyFor` | server.js:826-836 | for a rostered requester: the game's id, key and roster size, the entry's host flag, team 0 and the request's lobby ids; otherwise the fallback reply |
| `Server.EnterMatchmaking` | server.js:564-884 | the battle reply exactly for `RankedBattle`/`Battle`, carrying the drawn session id and race key, group size 1, host, team 1, the fixed host platform id, game type `RankedBattle` and the request's lobby ids as sent; an internal error exactly when a lobby id is missing; session expired exactly for a token mapped to an unknown player, which is dropped; the first two change nothing; a match keeps the token map and never releases a race key; a match reports team 0 unless it is the fallback reply; other players' records are unchanged |
| `Server.ResolvePreservesValid` | server.js:688-727 | identity resolution keeps the invariant |
| `Server.ClearRefPreservesValid` | server.js:755 | clearing one player's current-game reference keeps the invariant |
| `Server.FinishPreservesValid` | server.js:754 | marking a game finished without an end time keeps the invariant |
| `Server.ReusePreservesValid` | server.js:736-772 | the current-game check keeps the invariant |
| `Server.EnterPreservesValid` | server.js:564-884 | with unused session ids in the draws, a matchmaking request keeps the invariant |
| `Server.EnterRostersRequester` | server.js:733-836 | under the invariant, a request that is neither battle, nor missing a lobby id, nor refused gets the regular reply, never the fallback: a stored game that rosters the requester, its key and size, the entry's host flag, team 0 and the request's lobby ids |
| `Server.ReconnectReturnsCurrentGame` | server.js:740-764 | a known requester whose current game is waiting, or active and fresh, gets that game back and the state does not change |
| `Server.StaleGameAbandoned` | server.js:747-757 | a stale current game stays in the map, marked finished without an end time, so the retention sweep skips it until a race report carrying its key ends it; the requester is matched elsewhere and the other players keep their records, including references to the stale game |
| `Server.UnmappedTokenReregisters` | server.js:693-700 | every request with an unmapped token counts one more game for the fallback identity and stores the token, keeping points and wins |
| `Server.RemoveFromRoster` | server.js:913 | the filter keeps exactly the entries of other players and never lengthens the roster |
| `Server.RemoveFromRosterAppend` | server.js:913 | the filter works piece by piece over the roster, so the entries that stay keep their order and the first remaining entry is the earliest one left |
| `Server.RemoveFromRosterSingle` | server.js:913 | a single entry stays exactly when it is not the requester's |
| `Server.IdsMember` | server.js:913 | an id is on a roster exactly when some entry carries it |
| `Server.RemoveFromRosterIds` | server.js:913 | the filter drops exactly the requester's id |
| `Server.RemoveFromRosterNoDup` | server.js:913 | filtering keeps a roster free of repeated ids |
| `Server.Leave` | server.js:908-914 | a requester leaves exactly when its current game is waiting: that roster becomes the order-keeping filter of the old roster without the requester, the requester loses its reference, and no other game or player changes |
| `Server.CancelAsWritten` | server.js:908-925 | as written, cancelling never removes a game from the map or from the map order |
| `Server.CancelEmptiedGameStays` | server.js:913-921 | a registry satisfying the invariant in which a waiting game's only player cancels: as written, the game stays waiting with an empty roster and is offered to the next request; as intended, it is deleted |
| `Server.CancelCorrected` | server.js:908-925 | the requester leaves as above; a game left empty is deleted from the map and the order, a non-empty one is updated in place; race keys are kept |
| `Server.CancelAsWrittenPreservesValid` | server.js:908-925 | cancelling as written keeps the invariant: the emptied game it leaves behind is still a well-formed waiting game |
| `Server.CancelCorrectedPreservesValid` | server.js:908-925 | cancelling keeps the invariant |
| `Server.CancelCorrectedNoEmptyWaiting` | server.js:919-922 | cancelling never leaves a waiting game with an empty roster |
| `Server.CancelMatchmaking` | server.js:887-929 | the token map, race keys and player set are unchanged; other players keep their records; the requester ends with no current game unless nothing changed; every remaining game either no longer rosters the requester or is unchanged |
| `Server.AddPoints` | server.js:981-1042 | the requester is looked up without registration; the reply reports its stored total, or the random total when it is unknown, with the derived rank, division and season 45; the token map and player set are unchanged |
| `Legacy.EnsureRegistered` | index.js:235-238 | a record is created only for an unknown identity: guest name, the request's token, no current game, zero games and wins; a known identity changes nothing |
| `Legacy.LegacyReuse` | index.js:244-255 | only a waiting current game is handed back, with nothing changed; any other reference is cleared |
| `Legacy.LegacyReplyFor` | index.js:284-300 | for a rostered requester: the game's id, key, size and lobby ids, with the entry's host flag and team; otherwise the fallback reply |
| `Legacy.LegacyEnterMatchmaking` | index.js:206-342 | always a match; the requester is registered; race keys are never released; other records are unchanged, and an existing requester's record changes only in its current game |
| `Legacy.LegacyReusePreservesValid` | index.js:244-255 | the current-game check keeps the invariant |
| `Legacy.LegacyEnterPreservesValid` | index.js:206-342 | with unused session ids in the draws, a request keeps the invariant |
| `Legacy.LegacyRostersRequester` | index.js:284-300 | under the invariant the reply describes a stored game that rosters the requester, with that entry's host flag and team and the game's lobby ids |
| `Legacy.LegacyWaitingReconnect` | index.js:245-250 | a requester whose current game is waiting gets it back and nothing changes |
| `Legacy.LegacyActiveGameLeft` | index.js:245-255 | an active current game, however recent, is left untouched; the requester loses its reference and is matched into a different game |
| `Legacy.LegacyAddPoints` | index.js:398-437 | the same scoring under the token-prefix identity: the stored total or the random total, with the derived rank, division and season 45 |

## Left out

- Common.Substring: strings are sequences of Unicode scalar values, while
  JavaScript `substring` counts UTF-16 code units, so lengths and indices
  agree only for text within the Basic Multilingual Plane. The client
  address is ASCII; tokens with characters outside that plane are not
  modelled.
- Common.Sanitize: the regex without the `u` flag replaces each UTF-16 code
  unit, so a character outside the Basic Multilingual Plane becomes two
  `_` in the source and one in the model. The two agree on every ASCII
  address.
- Identity.LegacyPlatformId: the first sixteen token characters are counted
  as Unicode scalar values, not UTF-16 code units, so the identity agrees
  with the source only for tokens within the Basic Multilingual Plane.
- Request parsing, XML building, HTTP status codes and headers are not
  modelled. Requests are the field values the handlers read, with `None`
  for an absent field, and replies are the values the XML carries apart
  from the fixed average wait times. A lobby id a battle-mode reply echoes
  is kept as sent, absent included.
- `Math.random` draws, `Date.now()` and the client address are parameters.
  The distributions of the draws are not modelled, beyond the range of
  starting points and of the unknown requester's total.
- `parseInt` of the `AddPoints` fields is not modelled: a field is an
  integer or absent. A non-numeric field would give `NaN`, and that is out
  of scope.
- `server.js` `EnterMatchmaking2` has a branch for the second request since
  the process started, which depends on a process-global counter. It sends a
  canned "match found" reply and consumes a race key. It is not modelled,
  because it is a debugging probe tied to process history.
- `forceGameType`, `rankedWithAI` and `IgnoreMinimumMatchRequirements` in
  `server.js` only change log output, or a constant `true`. The model
  follows the code: battle mode is decided by the request alone.
- The 3-second auto-start timer in `server.js` is not modelled. It is
  armed only when `ignoreMinMatch` is `false`, and the handler sets it to
  `true`, so it is dead code.
- `averageWaitTime` of `getServerStats` is a random float, and the stats
  are used only in reply text, so `GameSession.GetServerStats` omits it.
- `userID` in the `AddPoints` reply is random and is not modelled.
- `getGame`, `getPlayer` and `getPlayerCurrentGame` are plain map lookups.
  The model indexes the maps directly.
- `generateSessionId` and `generateLobbyId` are pure random draws, given as
  `CreateDraw` fields. A drawn session id may be any integer: the range of
  the draw is not modelled, which only widens the inputs the lemmas cover.
- `lobbies` in the `GameSession` constructor is never used and is omitted.
- `Server.CancelMatchmaking` uses the corrected delete; the handler as
  written is `Server.CancelAsWritten` (see Findings).
- `Matchmaking.JoinOrCreate`, `Server.EnterMatchmaking` and
  `Legacy.LegacyEnterMatchmaking` require race-key draws with an unused
  candidate. The source loops until it finds one, so an exhausted draw is a
  non-terminating loop, not a result.
- The invariant lemmas `*PreservesValid` require an unused session id for a
  new game. A colliding id overwrites a live game in place. This is modelled
  in `GameSession.CreateGame`, but it can break the invariant.

## Findings

| source | as written | input that shows it | evidently intended | confidence | as-written member | corrected member |
|---|---|---|---|---|---|---|
| server.js:914-921 | `player.currentGameId = null` runs before `gameSession.games.delete(player.currentGameId)`, so the delete is `delete(null)` and removes nothing | one waiting game whose only player cancels | the emptied waiting game is deleted from the map | not executed | `Server.CancelAsWritten` (counterexample `Server.CancelEmptiedGameStays`: the empty waiting game stays and `getAvailableGames` offers it next) | `Server.CancelCorrected` (`Server.CancelCorrectedNoEmptyWaiting`, `Server.CancelCorrectedPreservesValid`) |

Other behaviour modelled as written:

- The `server.js` reply always reports team 0. The `index.js` reply reports
  the roster team.
- The `server.js` fallback reply reports team 1. The `index.js` fallback
  reply reports team 0.
- In `server.js`, a missing lobby id makes the handler assign to a `const`
  binding. That throws before identity resolution, and the request gets an
  internal error.
- A stale game is marked finished without an end time. The hourly sweep
  therefore skips it until a race report carrying its key ends it and
  stamps an end time (`Server.StaleGameAbandoned`).
- An unmapped token re-registers the fallback identity on every request
  (`Server.UnmappedTokenReregisters`).
- The `index.js` guest name skips the first character of the token
  (`Identity.GuestNameOfToken`).
- Both `AddPoints` handlers record `max(100 - 20·index, 10)` points in each
  result, but `endGame` awards `max(100 - 10·position, 10)` and never reads
  the recorded value (`Scoring.RecordedPointsNotAwarded`).

=== FILE: common.dfy ===
/** Shared vocabulary of the model: optional values, the registry's error
    conditions and the small string helpers that stand in for JavaScript's
    `substring`, truthiness and the IP-sanitising regular expression. */
module Common {

  /** A JavaScript value that may be `null` or `undefined`. */
  datatype Option<+T> = None | Some(value: T)

  /** The exceptions `GameSession` throws, one constructor per `throw` site. */
  datatype Error =
    | GameNotFound(sessionId: int)
    | PlayerNotFound(platformId: string)
    | GameFull(sessionId: int)
    | NotAccepting(sessionId: int)
    | HostNotFound(platformId: string)

  /** Success value or the exception that was thrown. */
  datatype Result<+T> = Ok(value: T) | Err(error: Error)

  /** JavaScript truthiness of an optional string: `undefined` and `""` are falsy. */
  predicate Truthy(s: Option<string>) {
    s.Some? && s.value != ""
  }

  /** JavaScript's `||` on an optional string: the string when it is truthy,
      the fallback otherwise. */
  function OrElse(s: Option<string>, fallback: string): (r: string)
    ensures Truthy(s) ==> r == s.value
    ensures !Truthy(s) ==> r == fallback
  {
    if Truthy(s) then s.value else fallback
  }

  /** A string `d` (a `||` fallback, or a default) that is not empty makes the
      result truthy, and applying the same fallback again changes nothing. */
  lemma OrElseSettles(s: Option<string>, d: string)
    requires d != ""
    ensures Truthy(Some(OrElse(s, d)))
    ensures OrElse(Some(OrElse(s, d)), d) == OrElse(s, d)
  {
  }

  /** `s.substring(a, b)` for `0 <= a <= b`: both ends are clamped to the length. */
  function Substring(s: string, a: nat, b: nat): (r: string)
    requires a <= b
    ensures |r| <= b - a
    ensures b <= |s| ==> r == s[a..b]
    ensures a <= |s| <= b ==> r == s[a..]
    ensures a >= |s| ==> r == ""
  {
    var lo := if a <= |s| then a else |s|;
    var hi := if b <= |s| then b else |s|;
    s[lo..hi]
  }

  /** ASCII letters and digits: the complement of the class `[^a-zA-Z0-9]`. */
  predicate IsAlnum(c: char) {
    ('a' <= c <= 'z') || ('A' <= c <= 'Z') || ('0' <= c <= '9')
  }

  /** Every character that is not an ASCII letter or digit becomes `_`, as
      the handlers do to the client address. */
  function Sanitize(ip: string): (r: string)
    ensures |r| == |ip|
    ensures forall i :: 0 <= i < |ip| ==> r[i] == (if IsAlnum(ip[i]) then ip[i] else '_')
  {
    if ip == [] then []
    else [if IsAlnum(ip[0]) then ip[0] else '_'] + Sanitize(ip[1..])
  }

  /** Every character of a sanitised string is a letter, a digit or `_`, and
      sanitising it again changes nothing. */
  lemma SanitizeIdempotent(ip: string)
    ensures forall i :: 0 <= i < |Sanitize(ip)| ==> IsAlnum(Sanitize(ip)[i]) || Sanitize(ip)[i] == '_'
    ensures Sanitize(Sanitize(ip)) == Sanitize(ip)
  {
    var s := Sanitize(ip);
    assert forall i :: 0 <= i < |s| ==> Sanitize(s)[i] == s[i];
  }
}

=== FILE: game_session.dfy ===
/** The `GameSession` registry: players keyed by platform id, games keyed by
    session id (with the insertion order a JavaScript `Map` iterates in), and
    the set of race keys in use.  Every mutator is a pure function from the
    registry before the call to the registry after it; a thrown exception is
    an `Err` result, and the registry that goes with it is what the mutator
    had already changed before throwing.  Clocks and `Math.random` are
    parameters: `now` is milliseconds since the epoch, and a `CreateDraw`
    holds the random values `createGame` consumes. */
module GameSession {
  import opened Common

  const MaxPlayers := 8
  /** Team number of the i-th joiner is `i / SquadSize`. */
  const SquadSize := 4
  /** Finished games are kept this many milliseconds after they end. */
  const RetentionMs := 60 * 60 * 1000
  const NetworkVersion := 1
  /** Range of a new player's starting points: 1000, plus a draw below 5000. */
  const MinStartPoints := 1000
  const MaxStartPoints := 5999

  datatype Status = Waiting | Active | Finished

  datatype RosterEntry = RosterEntry(platformId: string, displayName: string, team: int, isHost: bool, joinedAt: int)

  /** One entry of the results `endGame` is given.  `points` is the value the
      caller records; `endGame` reads only the platform id and the position. */
  datatype Standing = Standing(platformId: string, position: int, points: int)

  datatype Game = Game(
    sessionId: int,
    raceKey: string,
    gameLobbyId: string,
    groupLobbyId: string,
    hostPlatformId: string,
    hostDisplayName: string,
    gameType: string,
    ruleSet: string,
    ranking: string,
    status: Status,
    players: seq<RosterEntry>,
    maxPlayers: int,
    createdAt: int,
    startedAt: Option<int>,
    endedAt: Option<int>,
    results: Option<seq<Standing>>,
    networkVersion: int)

  datatype Player = Player(
    platformId: string,
    displayName: string,
    sessionToken: Option<string>,
    joinedAt: int,
    isOnline: bool,
    currentGameId: Option<int>,
    totalGames: int,
    wins: int,
    points: int,
    level: Option<int>,
    prestige: Option<int>)

  /** `order` lists the keys of `games` in the order the `Map` iterates them. */
  datatype Registry = Registry(
    games: map<int, Game>,
    order: seq<int>,
    players: map<string, Player>,
    raceKeys: set<string>)

  /** The registry after a mutator together with its return value or exception. */
  datatype Effect<T> = Effect(reg: Registry, result: Result<T>)

  /** The random values one `createGame` call draws: the session id, the
      successive race-key candidates of the retry loop, and the lobby ids
      `generateLobbyId` would produce when the client sent none. */
  datatype CreateDraw = CreateDraw(sessionId: int, keyCandidates: seq<string>, gameLobbyId: string, groupLobbyId: string)

  const EmptyRegistry := Registry(map[], [], map[], {})

  /** Platform ids of a roster, in roster order. */
  function Ids(roster: seq<RosterEntry>): (r: seq<string>)
    ensures |r| == |roster|
    ensures forall i :: 0 <= i < |roster| ==> r[i] == roster[i].platformId
  {
    seq(|roster|, i requires 0 <= i < |roster| => roster[i].platformId)
  }

  predicate NoDup<T(==)>(s: seq<T>) {
    forall i, j :: 0 <= i < j < |s| ==> s[i] != s[j]
  }

  /** No roster entry before position `i` carries platform id `pid`. */
  predicate NoEntryBefore(roster: seq<RosterEntry>, i: int, pid: string)
    requires 0 <= i <= |roster|
  {
    forall j :: 0 <= j < i ==> roster[j].platformId != pid
  }

  /** The first roster entry carrying platform id `pid`, if any. */
  function FindEntry(roster: seq<RosterEntry>, pid: string): (r: Option<RosterEntry>)
    ensures r.None? <==> pid !in Ids(roster)
    ensures r.Some? ==> r.value in roster && r.value.platformId == pid
    ensures r.Some? && |roster| > 0 && roster[0].platformId == pid ==> r.value == roster[0]
    ensures r.Some? ==> exists i :: 0 <= i < |roster| && roster[i] == r.value && NoEntryBefore(roster, i, pid)
  {
    if roster == [] then None
    else if roster[0].platformId == pid then Some(roster[0])
    else
      assert Ids(roster) == [roster[0].platformId] + Ids(roster[1..]);
      var r := FindEntry(roster[1..], pid);
      assert r.Some? ==> exists i :: 0 <= i < |roster| && roster[i] == r.value && NoEntryBefore(roster, i, pid) by {
        if r.Some? {
          var i :| 0 <= i < |roster[1..]| && roster[1..][i] == r.value && NoEntryBefore(roster[1..], i, pid);
          assert roster[i + 1] == r.value;
          forall j | 0 <= j < i + 1 ensures roster[j].platformId != pid {
            if j > 0 { assert roster[j] == roster[1..][j - 1]; }
          }
        }
      }
      r
  }

  /** A NoDup roster has exactly one entry per id, so the found entry is the one at its index. */
  lemma {:induction false} FindEntryAt(roster: seq<RosterEntry>, i: int)
    requires NoDup(Ids(roster)) && 0 <= i < |roster|
    ensures FindEntry(roster, roster[i].platformId) == Some(roster[i])
    decreases i
  {
    if i > 0 {
      assert roster[0].platformId != roster[i].platformId by {
        assert Ids(roster)[0] != Ids(roster)[i];
      }
      var tail := roster[1..];
      assert Ids(tail) == Ids(roster)[1..];
      FindEntryAt(tail, i - 1);
    }
  }

  // ---------------------------------------------------------------------------
  // generateRaceKey

  /** Some candidate of the draw sequence is not yet in use, so the retry loop stops. */
  predicate HasFresh(keys: set<string>, candidates: seq<string>) {
    exists i :: 0 <= i < |candidates| && candidates[i] !in keys
  }

  /** The key the do/while loop of `generateRaceKey` settles on: the first
      candidate not already in the key set. */
  function GenerateRaceKey(keys: set<string>, candidates: seq<string>): (k: string)
    requires HasFresh(keys, candidates)
    ensures k !in keys
    ensures exists i :: 0 <= i < |candidates| && candidates[i] == k && forall j :: 0 <= j < i ==> candidates[j] in keys
    decreases |candidates|
  {
    if candidates[0] !in keys then candidates[0]
    else
      var k := GenerateRaceKey(keys, candidates[1..]);
      assert exists i :: 1 <= i < |candidates| && candidates[i] == k && forall j :: 0 <= j < i ==> candidates[j] in keys by {
        var i :| 0 <= i < |candidates[1..]| && candidates[1..][i] == k && forall j :: 0 <= j < i ==> candidates[1..][j] in keys;
        assert candidates[i + 1] == k;
        forall j | 0 <= j < i + 1 ensures candidates[j] in keys {
          if j > 0 { assert candidates[j] == candidates[1..][j - 1]; }
        }
      }
      k
  }

  // ---------------------------------------------------------------------------
  // registerPlayer

  /** The display name `registerPlayer` stores: the given one, or `Player_`
      and the first eight characters of the platform id. */
  function DisplayNameFor(pid: string, displayName: Option<string>): string {
    OrElse(displayName, "Player_" + Substring(pid, 0, 8))
  }

  /** `registerPlayer(platformId, displayName, sessionToken)`: the record is
      replaced by a fresh one that keeps only the wins and points of an
      existing record and counts one more game for it. */
  function RegisterPlayer(reg: Registry, pid: string, displayName: Option<string>, token: Option<string>, now: int, startPoints: int): (r: Registry)
    requires MinStartPoints <= startPoints <= MaxStartPoints
    ensures r.games == reg.games && r.order == reg.order && r.raceKeys == reg.raceKeys
    ensures r.players.Keys == reg.players.Keys + {pid}
    ensures forall q :: q in reg.players && q != pid ==> r.players[q] == reg.players[q]
    ensures r.players[pid].platformId == pid && r.players[pid].isOnline && r.players[pid].currentGameId == None
    ensures r.players[pid].displayName == DisplayNameFor(pid, displayName) && r.players[pid].sessionToken == token
    ensures r.players[pid].level == None && r.players[pid].prestige == None && r.players[pid].joinedAt == now
    ensures pid in reg.players ==>
      && r.players[pid].totalGames == reg.players[pid].totalGames + 1
      && r.players[pid].wins == reg.players[pid].wins
      && r.players[pid].points == reg.players[pid].points
    ensures pid !in reg.players ==>
      r.players[pid].totalGames == 0 && r.players[pid].wins == 0 && MinStartPoints <= r.players[pid].points <= MaxStartPoints
  {
    var existing := if pid in reg.players then Some(reg.players[pid]) else None;
    var p := Player(
      pid, DisplayNameFor(pid, displayName), token, now, true, None,
      if existing.Some? then existing.value.totalGames + 1 else 0,
      if existing.Some? then existing.value.wins else 0,
      if existing.Some? then existing.value.points else startPoints,
      None, None);
    reg.(players := reg.players[pid := p])
  }

  // ---------------------------------------------------------------------------
  // createGame

  /** A JavaScript default parameter: used when the argument is `undefined`. */
  function ValueOr(s: Option<string>, default: string): string {
    if s.Some? then s.value else default
  }

  /** `createGame(host, gameType, ruleSet, ranking, gameLobbyId, groupLobbyId)`.
      The session id and race key are drawn before the host is looked up, so a
      failed call still consumes a race key.  A session id already in the map
      overwrites that game in place (a `Map.set` on an existing key keeps its
      position in the iteration order). */
  function CreateGame(
    reg: Registry, hostId: string,
    gameType: Option<string>, ruleSet: Option<string>, ranking: Option<string>,
    clientGameLobbyId: Option<string>, clientGroupLobbyId: Option<string>,
    now: int, d: CreateDraw): (e: Effect<Game>)
    requires HasFresh(reg.raceKeys, d.keyCandidates)
    ensures e.result.Err? <==> hostId !in reg.players
    ensures e.result.Err? ==> e.result.error == HostNotFound(hostId)
    ensures exists k :: k !in reg.raceKeys && k in d.keyCandidates && e.reg.raceKeys == reg.raceKeys + {k}
    ensures e.result.Err? ==> e.reg.games == reg.games && e.reg.order == reg.order && e.reg.players == reg.players
    ensures e.result.Ok? ==>
      var g := e.result.value;
      && g.sessionId == d.sessionId
      && g.raceKey !in reg.raceKeys && e.reg.raceKeys == reg.raceKeys + {g.raceKey}
      && g.status == Waiting && g.maxPlayers == MaxPlayers
      && g.players == [RosterEntry(hostId, reg.players[hostId].displayName, 0, true, now)]
      && g.hostPlatformId == hostId && g.createdAt == now
      && g.startedAt == None && g.endedAt == None && g.results == None
      && g.gameType == ValueOr(gameType, "Race") && g.ruleSet == ValueOr(ruleSet, "Race") && g.ranking == ValueOr(ranking, "NotRanked")
      && g.gameLobbyId == OrElse(clientGameLobbyId, d.gameLobbyId)
      && g.groupLobbyId == OrElse(clientGroupLobbyId, d.groupLobbyId)
      && e.reg.games == reg.games[d.sessionId := g]
      && e.reg.players == reg.players[hostId := reg.players[hostId].(currentGameId := Some(d.sessionId))]
      && e.reg.order == (if d.sessionId in reg.games then reg.order else reg.order + [d.sessionId])
  {
    var key := GenerateRaceKey(reg.raceKeys, d.keyCandidates);
    var keys := reg.raceKeys + {key};
    if hostId !in reg.players then
      Effect(reg.(raceKeys := keys), Err(HostNotFound(hostId)))
    else
      var host := reg.players[hostId];
      var g := Game(
        d.sessionId, key,
        OrElse(clientGameLobbyId, d.gameLobbyId), OrElse(clientGroupLobbyId, d.groupLobbyId),
        hostId, host.displayName,
        ValueOr(gameType, "Race"), ValueOr(ruleSet, "Race"), ValueOr(ranking, "NotRanked"),
        Waiting, [RosterEntry(hostId, host.displayName, 0, true, now)], MaxPlayers,
        now, None, None, None, NetworkVersion);
      var order := if d.sessionId in reg.games then reg.order else reg.order + [d.sessionId];
      Effect(
        Registry(reg.games[d.sessionId := g], order, reg.players[hostId := host.(currentGameId := Some(d.sessionId))], keys),
        Ok(g))
  }

  // ---------------------------------------------------------------------------
  // joinGame

  /** `joinGame(sessionId, platformId)`: the checks run in the order missing
      game, missing player, full roster, not waiting; an id already on the
      roster gets the game back with nothing changed. */
  function JoinGame(reg: Registry, sid: int, pid: string, now: int): (e: Effect<Game>)
    ensures sid !in reg.games ==> e == Effect(reg, Err(GameNotFound(sid)))
    ensures sid in reg.games && pid !in reg.players ==> e == Effect(reg, Err(PlayerNotFound(pid)))
    ensures sid in reg.games && pid in reg.players && |reg.games[sid].players| >= reg.games[sid].maxPlayers ==>
      e == Effect(reg, Err(GameFull(sid)))
    ensures sid in reg.games && pid in reg.players && |reg.games[sid].players| < reg.games[sid].maxPlayers && reg.games[sid].status != Waiting ==>
      e == Effect(reg, Err(NotAccepting(sid)))
    ensures e.result.Ok? ==> sid in reg.games && pid in reg.players && reg.games[sid].status == Waiting
    ensures e.result.Ok? && pid in Ids(reg.games[sid].players) ==> e == Effect(reg, Ok(reg.games[sid]))
    ensures e.result.Ok? && pid !in Ids(reg.games[sid].players) ==>
      var g := reg.games[sid];
      && e.result.value == g.(players := g.players + [RosterEntry(pid, reg.players[pid].displayName, |g.players| / SquadSize, false, now)])
      && e.reg == reg.(games := reg.games[sid := e.result.value],
                       players := reg.players[pid := reg.players[pid].(currentGameId := Some(sid))])
    ensures e.result.Ok? ==>
      && |e.result.value.players| <= e.result.value.maxPlayers
      && pid in Ids(e.result.value.players)
      && (NoDup(Ids(reg.games[sid].players)) ==> NoDup(Ids(e.result.value.players)))
  {
    if sid !in reg.games then Effect(reg, Err(GameNotFound(sid)))
    else if pid !in reg.players then Effect(reg, Err(PlayerNotFound(pid)))
    else
      var g := reg.games[sid];
      var p := reg.players[pid];
      if |g.players| >= g.maxPlayers then Effect(reg, Err(GameFull(sid)))
      else if g.status != Waiting then Effect(reg, Err(NotAccepting(sid)))
      else if pid in Ids(g.players) then Effect(reg, Ok(g))
      else
        var entry := RosterEntry(pid, p.displayName, |g.players| / SquadSize, false, now);
        var g' := g.(players := g.players + [entry]);
        assert Ids(g'.players) == Ids(g.players) + [pid];
        Effect(reg.(games := reg.games[sid := g'], players := reg.players[pid := p.(currentGameId := Some(sid))]), Ok(g'))
  }

  // ---------------------------------------------------------------------------
  // getAvailableGames

  /** The filter of `getAvailableGames`; a falsy filter value matches every game. */
  predicate Available(g: Game, gameType: Option<string>, ranking: Option<string>) {
    && g.status == Waiting
    && |g.players| < g.maxPlayers
    && (!Truthy(gameType) || g.gameType == gameType.value)
    && (!Truthy(ranking) || g.ranking == ranking.value)
  }

  predicate NewestFirst(s: seq<Game>) {
    forall i, j :: 0 <= i < j < |s| ==> s[i].createdAt >= s[j].createdAt
  }

  predicate DistinctSessions(s: seq<Game>) {
    forall i, j :: 0 <= i < j < |s| ==> s[i].sessionId != s[j].sessionId
  }

  /** The games of `ids` that pass the filter, in the order of `ids`. */
  function Matching(games: map<int, Game>, ids: seq<int>, gameType: Option<string>, ranking: Option<string>): (r: seq<Game>)
    ensures forall g :: g in r ==> g in games.Values && Available(g, gameType, ranking)
    ensures forall i :: 0 <= i < |ids| && ids[i] in games && Available(games[ids[i]], gameType, ranking) ==> games[ids[i]] in r
    ensures forall g :: g in r ==> exists i :: 0 <= i < |ids| && ids[i] in games && games[ids[i]] == g
    decreases |ids|
  {
    if ids == [] then []
    else
      var rest := Matching(games, ids[1..], gameType, ranking);
      assert forall g :: g in rest ==> exists i :: 1 <= i < |ids| && ids[i] in games && games[ids[i]] == g by {
        forall g | g in rest ensures exists i :: 1 <= i < |ids| && ids[i] in games && games[ids[i]] == g {
          var i :| 0 <= i < |ids[1..]| && ids[1..][i] in games && games[ids[1..][i]] == g;
          assert ids[i + 1] == ids[1..][i];
        }
      }
      if ids[0] in games && Available(games[ids[0]], gameType, ranking) then
        [games[ids[0]]] + rest
      else
        rest
  }

  /** Every game in the map is stored under its own session id. */
  ghost predicate KeyedBySession(games: map<int, Game>) {
    forall sid :: sid in games ==> games[sid].sessionId == sid
  }

  /** Filtering a repetition-free key order never lists one session twice. */
  lemma {:induction false} MatchingDistinct(games: map<int, Game>, ids: seq<int>, gameType: Option<string>, ranking: Option<string>)
    requires NoDup(ids) && KeyedBySession(games)
    ensures DistinctSessions(Matching(games, ids, gameType, ranking))
    decreases |ids|
  {
    if ids != [] {
      var rest := Matching(games, ids[1..], gameType, ranking);
      assert NoDup(ids[1..]) by {
        forall i, j | 0 <= i < j < |ids[1..]| ensures ids[1..][i] != ids[1..][j] {
          assert ids[1..][i] == ids[i + 1] && ids[1..][j] == ids[j + 1];
        }
      }
      MatchingDistinct(games, ids[1..], gameType, ranking);
      if ids[0] in games && Available(games[ids[0]], gameType, ranking) {
        var r := [games[ids[0]]] + rest;
        forall g | g in rest ensures g.sessionId != ids[0] {
          var i :| 0 <= i < |ids[1..]| && ids[1..][i] in games && games[ids[1..][i]] == g;
          assert ids[1..][i] == ids[i + 1];
        }
        forall i, j | 0 <= i < j < |r| ensures r[i].sessionId != r[j].sessionId {
          if i == 0 {
            assert r[j] == rest[j - 1];
            assert r[j] in rest;
          } else {
            assert r[i] == rest[i - 1] && r[j] == rest[j - 1];
          }
        }
      }
    }
  }

  /** `r` is `t` with `x` placed at position `k`, after exactly the elements
      strictly newer than `x`: ahead of every element created at the same
      time. */
  predicate InsertedAt(x: Game, t: seq<Game>, k: int, r: seq<Game>) {
    && 0 <= k <= |t| && |r| == |t| + 1 && r[k] == x
    && (forall i :: 0 <= i < k ==> r[i] == t[i])
    && (forall i :: k < i < |r| ==> r[i] == t[i - 1])
    && (forall i :: 0 <= i < k ==> t[i].createdAt > x.createdAt)
    && (k < |t| ==> t[k].createdAt <= x.createdAt)
  }

  /** Inserts `x` before the first element that is not newer than it, so that
      among equal creation times the inserted element comes first. */
  function InsertNewest(x: Game, t: seq<Game>): (r: seq<Game>)
    ensures multiset(r) == multiset(t) + multiset{x}
    ensures forall g :: g in r <==> g == x || g in t
    decreases |t|
  {
    if t == [] || t[0].createdAt <= x.createdAt then [x] + t
    else
      assert t == [t[0]] + t[1..];
      [t[0]] + InsertNewest(x, t[1..])
  }

  /** How many leading elements of `t` are strictly newer than `x`. */
  function NewerCount(x: Game, t: seq<Game>): nat
    decreases |t|
  {
    if t == [] || t[0].createdAt <= x.createdAt then 0 else 1 + NewerCount(x, t[1..])
  }

  /** The insertion step is stable: `x` lands after exactly the elements
      strictly newer than it, so it goes ahead of every element created at
      the same time.  The sort inserts each element into the sorted rest of
      the sequence, so among equal creation times the earlier one stays first. */
  lemma {:induction false} InsertNewestPosition(x: Game, t: seq<Game>)
    ensures InsertedAt(x, t, NewerCount(x, t), InsertNewest(x, t))
    decreases |t|
  {
    if t == [] || t[0].createdAt <= x.createdAt {
      assert InsertedAt(x, t, 0, InsertNewest(x, t));
    } else {
      var rest := InsertNewest(x, t[1..]);
      InsertNewestPosition(x, t[1..]);
      var k := NewerCount(x, t[1..]);
      var r := InsertNewest(x, t);
      assert r == [t[0]] + rest;
      forall i | 0 <= i < k + 1 ensures r[i] == t[i] && t[i].createdAt > x.createdAt {
        if i > 0 { assert t[i] == t[1..][i - 1] && r[i] == rest[i - 1]; }
      }
      forall i | k + 1 < i < |r| ensures r[i] == t[i - 1] {
        assert r[i] == rest[i - 1] && t[i - 1] == t[1..][i - 2];
      }
      if k + 1 < |t| { assert t[k + 1] == t[1..][k]; }
      assert InsertedAt(x, t, k + 1, InsertNewest(x, t));
    }
  }

  /** A stable sort by creation time, newest first: it keeps the elements
      and their multiplicities (and `SortNewestStable` the order of ties). */
  function SortNewest(s: seq<Game>): (r: seq<Game>)
    ensures multiset(r) == multiset(s)
    ensures forall g :: g in r <==> g in s
    decreases |s|
  {
    if s == [] then []
    else
      assert s == [s[0]] + s[1..];
      InsertNewest(s[0], SortNewest(s[1..]))
  }

  /** The games of `s` created at instant `c`, in their order in `s`. */
  function SameTime(s: seq<Game>, c: int): (r: seq<Game>)
    ensures forall g :: g in r <==> g in s && g.createdAt == c
    decreases |s|
  {
    if s == [] then []
    else
      var rest := SameTime(s[1..], c);
      assert forall g :: g in s <==> g == s[0] || g in s[1..];
      if s[0].createdAt == c then [s[0]] + rest else rest
  }

  /** Inserting `x` puts it ahead of every game created at the same instant
      and leaves the relative order of those games unchanged. */
  lemma {:induction false} InsertNewestSameTime(x: Game, t: seq<Game>, c: int)
    ensures SameTime(InsertNewest(x, t), c) == (if x.createdAt == c then [x] else []) + SameTime(t, c)
    decreases |t|
  {
    var r := InsertNewest(x, t);
    if t == [] || t[0].createdAt <= x.createdAt {
      assert r == [x] + t && r[1..] == t;
    } else {
      var rest := InsertNewest(x, t[1..]);
      assert r == [t[0]] + rest && r[1..] == rest;
      InsertNewestSameTime(x, t[1..], c);
    }
  }

  /** The sort is stable: the games created at any one instant come out in
      the order they went in. */
  lemma {:induction false} SortNewestStable(s: seq<Game>, c: int)
    ensures SameTime(SortNewest(s), c) == SameTime(s, c)
    decreases |s|
  {
    if s != [] {
      SortNewestStable(s[1..], c);
      InsertNewestSameTime(s[0], SortNewest(s[1..]), c);
    }
  }

  lemma NewestFirstTail(t: seq<Game>)
    requires NewestFirst(t) && t != []
    ensures NewestFirst(t[1..])
    ensures forall g :: g in t[1..] ==> t[0].createdAt >= g.createdAt
  {
    forall g | g in t[1..] ensures t[0].createdAt >= g.createdAt {
      var k :| 0 <= k < |t[1..]| && t[1..][k] == g;
      assert t[k + 1] == g;
    }
  }

  /** Inserting into a newest-first sequence keeps it newest first. */
  lemma {:induction false} InsertNewestSorted(x: Game, t: seq<Game>)
    requires NewestFirst(t)
    ensures NewestFirst(InsertNewest(x, t))
    decreases |t|
  {
    var r := InsertNewest(x, t);
    if t == [] || t[0].createdAt <= x.createdAt {
      forall i, j | 0 <= i < j < |r| ensures r[i].createdAt >= r[j].createdAt {
        assert r[j] == t[j - 1];
        if i > 0 { assert r[i] == t[i - 1]; } else if j > 1 { assert t[0].createdAt >= t[j - 1].createdAt; }
      }
    } else {
      var rest := InsertNewest(x, t[1..]);
      assert r == [t[0]] + rest;
      NewestFirstTail(t);
      InsertNewestSorted(x, t[1..]);
      forall i, j | 0 <= i < j < |r| ensures r[i].createdAt >= r[j].createdAt {
        assert r[j] == rest[j - 1];
        if i > 0 { assert r[i] == rest[i - 1]; } else { assert r[j] in rest; }
      }
    }
  }

  /** Inserting a session the sequence does not hold keeps its sessions distinct. */
  lemma {:induction false} InsertNewestDistinct(x: Game, t: seq<Game>)
    requires DistinctSessions(t) && forall g :: g in t ==> g.sessionId != x.sessionId
    ensures DistinctSessions(InsertNewest(x, t))
    decreases |t|
  {
    var r := InsertNewest(x, t);
    if t == [] || t[0].createdAt <= x.createdAt {
      forall i, j | 0 <= i < j < |r| ensures r[i].sessionId != r[j].sessionId {
        assert r[j] == t[j - 1];
        if i > 0 { assert r[i] == t[i - 1]; } else { assert r[j] in t; }
      }
    } else {
      var t1 := t[1..];
      var rest := InsertNewest(x, t1);
      assert r == [t[0]] + rest;
      assert DistinctSessions(t1) by {
        forall i, j | 0 <= i < j < |t1| ensures t1[i].sessionId != t1[j].sessionId {
          assert t1[i] == t[i + 1] && t1[j] == t[j + 1];
        }
      }
      InsertNewestDistinct(x, t1);
      forall g | g in rest ensures g.sessionId != t[0].sessionId {
        if g != x {
          var k :| 0 <= k < |t1| && t1[k] == g;
          assert t[k + 1] == g;
        }
      }
      forall i, j | 0 <= i < j < |r| ensures r[i].sessionId != r[j].sessionId {
        assert r[j] == rest[j - 1];
        if i > 0 { assert r[i] == rest[i - 1]; } else { assert r[j] in rest; }
      }
    }
  }

  /** The sort yields a newest-first sequence, without repeating a session
      that its input did not repeat. */
  lemma {:induction false} SortNewestSorted(s: seq<Game>)
    ensures NewestFirst(SortNewest(s))
    ensures DistinctSessions(s) ==> DistinctSessions(SortNewest(s))
    decreases |s|
  {
    if s != [] {
      var t := SortNewest(s[1..]);
      SortNewestSorted(s[1..]);
      if DistinctSessions(s) {
        assert DistinctSessions(s[1..]) by {
          forall i, j | 0 <= i < j < |s[1..]| ensures s[1..][i].sessionId != s[1..][j].sessionId {
            assert s[1..][i] == s[i + 1] && s[1..][j] == s[j + 1];
          }
        }
        forall g | g in t ensures g.sessionId != s[0].sessionId {
          var k :| 0 <= k < |s[1..]| && s[1..][k] == g;
          assert s[k + 1] == g;
        }
      }
      InsertNewestSorted(s[0], t);
      if DistinctSessions(s) { InsertNewestDistinct(s[0], t); }
    }
  }

  /** The registry's `Map` and its iteration order agree, and every record is
      stored under its own id. */
  ghost predicate WellFormed(reg: Registry) {
    && NoDup(reg.order)
    && (forall sid :: sid in reg.games <==> sid in reg.order)
    && (forall sid :: sid in reg.games ==> reg.games[sid].sessionId == sid)
    && (forall pid :: pid in reg.players ==> reg.players[pid].platformId == pid)
  }

  /** `getAvailableGames(gameType, ranking)`: exactly the waiting, non-full
      games that pass the filter, newest first. */
  function GetAvailableGames(reg: Registry, gameType: Option<string>, ranking: Option<string>): (r: seq<Game>)
    ensures forall g :: g in r ==> g in reg.games.Values && Available(g, gameType, ranking)
    ensures WellFormed(reg) ==> forall sid :: sid in reg.games && Available(reg.games[sid], gameType, ranking) ==> reg.games[sid] in r
    ensures NewestFirst(r)
    ensures WellFormed(reg) ==> DistinctSessions(r)
    ensures WellFormed(reg) ==> forall g :: g in r ==> g.sessionId in reg.games && reg.games[g.sessionId] == g
  {
    var matching := Matching(reg.games, reg.order, gameType, ranking);
    SortNewestSorted(matching);
    assert WellFormed(reg) ==> DistinctSessions(matching) by {
      if WellFormed(reg) { MatchingDistinct(reg.games, reg.order, gameType, ranking); }
    }
    assert WellFormed(reg) ==> forall g :: g in matching ==> g.sessionId in reg.games && reg.games[g.sessionId] == g by {
      if WellFormed(reg) {
        forall g | g in matching ensures g.sessionId in reg.games && reg.games[g.sessionId] == g {
          var i :| 0 <= i < |reg.order| && reg.order[i] in reg.games && reg.games[reg.order[i]] == g;
          assert reg.games[reg.order[i]].sessionId == reg.order[i];
        }
      }
    }
    SortNewest(matching)
  }

  /** Available games created at the same instant are listed in map order:
      the order in which `Matching` walks the map's keys. */
  lemma {:induction false} GetAvailableGamesStable(reg: Registry, gameType: Option<string>, ranking: Option<string>, c: int)
    ensures SameTime(GetAvailableGames(reg, gameType, ranking), c) == SameTime(Matching(reg.games, reg.order, gameType, ranking), c)
  {
    SortNewestStable(Matching(reg.games, reg.order, gameType, ranking), c);
  }

  // ---------------------------------------------------------------------------
  // startGame, endGame

  /** `startGame(sessionId)`: fails only on a missing game; any other game,
      a finished one included, becomes active. */
  function StartGame(reg: Registry, sid: int, now: int): (e: Effect<Game>)
    ensures sid !in reg.games <==> e.result.Err?
    ensures sid !in reg.games ==> e == Effect(reg, Err(GameNotFound(sid)))
    ensures sid in reg.games ==>
      && e.result.value == reg.games[sid].(status := Active, startedAt := Some(now))
      && e.reg == reg.(games := reg.games[sid := e.result.value])
  {
    if sid !in reg.games then Effect(reg, Err(GameNotFound(sid)))
    else
      var g := reg.games[sid].(status := Active, startedAt := Some(now));
      Effect(reg.(games := reg.games[sid := g]), Ok(g))
  }

  /** Placement points: 100 less ten per place, but never below 10. */
  function PlacementPoints(position: int): (p: int)
    ensures p >= 10
    ensures position <= 9 ==> p == 100 - 10 * position
    ensures position >= 9 ==> p == 10
  {
    if 100 - position * 10 > 10 then 100 - position * 10 else 10
  }

  /** Better placings never earn fewer points. */
  lemma PlacementPointsMonotone(a: int, b: int)
    requires a <= b
    ensures PlacementPoints(a) >= PlacementPoints(b)
  {
  }

  /** The first result carrying platform id `pid`, if any. */
  function FindStanding(results: seq<Standing>, pid: string): (r: Option<Standing>)
    ensures r.Some? ==> r.value in results && r.value.platformId == pid
    ensures r.None? ==> forall s :: s in results ==> s.platformId != pid
    ensures r.Some? ==> exists i :: 0 <= i < |results| && results[i] == r.value && forall j :: 0 <= j < i ==> results[j].platformId != pid
  {
    if results == [] then None
    else if results[0].platformId == pid then Some(results[0])
    else
      var r := FindStanding(results[1..], pid);
      assert r.Some? ==> exists i :: 0 <= i < |results| && results[i] == r.value && forall j :: 0 <= j < i ==> results[j].platformId != pid by {
        if r.Some? {
          var i :| 0 <= i < |results[1..]| && results[1..][i] == r.value && forall j :: 0 <= j < i ==> results[1..][j].platformId != pid;
          assert results[i + 1] == r.value;
          forall j | 0 <= j < i + 1 ensures results[j].platformId != pid {
            if j > 0 { assert results[j] == results[1..][j - 1]; }
          }
        }
      }
      r
  }

  /** What `endGame` never touches in a player record: everything but the
      game counters, the points and the current game. */
  predicate KeepsProfile(p: Player, p': Player) {
    && p'.platformId == p.platformId && p'.displayName == p.displayName
    && p'.sessionToken == p.sessionToken && p'.joinedAt == p.joinedAt
    && p'.isOnline == p.isOnline && p'.level == p.level && p'.prestige == p.prestige
  }

  /** `p'` is roster player `pid`'s record `p` after a game with `results`:
      one more game, no current game, the placement points of its result
      (if any) and a win for first place; its profile is untouched. */
  predicate SettledFrom(p: Player, p': Player, pid: string, results: seq<Standing>) {
    var standing := FindStanding(results, pid);
    && p'.totalGames == p.totalGames + 1
    && p'.currentGameId == None
    && p'.points == p.points + (if standing.Some? then PlacementPoints(standing.value.position) else 0)
    && p'.wins == p.wins + (if standing.Some? && standing.value.position == 1 then 1 else 0)
    && KeepsProfile(p, p')
  }

  /** The record of one roster player after `endGame`. */
  function Settled(p: Player, pid: string, results: seq<Standing>): (r: Player)
    ensures SettledFrom(p, r, pid, results)
  {
    var counted := p.(totalGames := p.totalGames + 1, currentGameId := None);
    var standing := FindStanding(results, pid);
    if |results| > 0 && standing.Some? then
      counted.(points := counted.points + PlacementPoints(standing.value.position),
               wins := if standing.value.position == 1 then counted.wins + 1 else counted.wins)
    else counted
  }

  /** The `forEach` of `endGame` over the roster, one entry at a time. */
  function SettleRoster(players: map<string, Player>, roster: seq<RosterEntry>, results: seq<Standing>): (r: map<string, Player>)
    ensures r.Keys == players.Keys
    ensures forall q :: q in players ==> KeepsProfile(players[q], r[q])
    decreases |roster|
  {
    if roster == [] then players
    else
      var pid := roster[0].platformId;
      var next := if pid in players then players[pid := Settled(players[pid], pid, results)] else players;
      SettleRoster(next, roster[1..], results)
  }

  /** On a roster without repeated ids, every registered roster player is
      settled exactly once and every other player is left as it was. */
  lemma {:induction false} SettleRosterEffect(players: map<string, Player>, roster: seq<RosterEntry>, results: seq<Standing>)
    requires NoDup(Ids(roster))
    ensures forall q :: q in players && q in Ids(roster) ==> SettleRoster(players, roster, results)[q] == Settled(players[q], q, results)
    ensures forall q :: q in players && q !in Ids(roster) ==> SettleRoster(players, roster, results)[q] == players[q]
    decreases |roster|
  {
    if roster != [] {
      var pid := roster[0].platformId;
      var next := if pid in players then players[pid := Settled(players[pid], pid, results)] else players;
      var tail := roster[1..];
      assert Ids(roster) == [pid] + Ids(tail);
      assert pid !in Ids(tail) by {
        forall i | 0 <= i < |tail| ensures Ids(tail)[i] != pid {
          assert Ids(roster)[0] != Ids(roster)[i + 1];
        }
      }
      assert NoDup(Ids(tail)) by {
        forall i, j | 0 <= i < j < |Ids(tail)| ensures Ids(tail)[i] != Ids(tail)[j] {
          assert Ids(roster)[i + 1] != Ids(roster)[j + 1];
        }
      }
      SettleRosterEffect(next, tail, results);
    }
  }

  /** `endGame(sessionId, results)`: the game is finished and stamped, and each
      registered roster player has one more game, no current game, and the
      placement points (and a win for first place) of its matching result. */
  function EndGame(reg: Registry, sid: int, results: seq<Standing>, now: int): (e: Effect<Game>)
    ensures sid !in reg.games <==> e.result.Err?
    ensures sid !in reg.games ==> e == Effect(reg, Err(GameNotFound(sid)))
    ensures sid in reg.games ==>
      && e.result.value == reg.games[sid].(status := Finished, endedAt := Some(now), results := Some(results))
      && e.reg.games == reg.games[sid := e.result.value]
      && e.reg.order == reg.order && e.reg.raceKeys == reg.raceKeys
      && e.reg.players.Keys == reg.players.Keys
      && forall q :: q in reg.players ==> KeepsProfile(reg.players[q], e.reg.players[q])
    ensures sid in reg.games && NoDup(Ids(reg.games[sid].players)) ==>
      forall q :: q in reg.players ==>
        var p := reg.players[q];
        var p' := e.reg.players[q];
        if q in Ids(reg.games[sid].players) then SettledFrom(p, p', q, results) else p' == p
  {
    if sid !in reg.games then Effect(reg, Err(GameNotFound(sid)))
    else
      var g := reg.games[sid];
      var g' := g.(status := Finished, endedAt := Some(now), results := Some(results));
      var players := SettleRoster(reg.players, g.players, results);
      var e := Effect(reg.(games := reg.games[sid := g'], players := players), Ok(g'));
      if NoDup(Ids(g.players)) then SettleRosterEffect(reg.players, g.players, results); e else e
  }

  // ---------------------------------------------------------------------------
  // cleanupOldGames

  /** A game the reaper deletes at time `now`: finished, with an end time more
      than the retention window ago.  A game without an end time never is. */
  predicate Expired(g: Game, now: int) {
    g.status == Finished && g.endedAt.Some? && g.endedAt.value < now - RetentionMs
  }

  /** The map order after deleting the keys in `gone`. */
  function WithoutIds(order: seq<int>, gone: set<int>): (r: seq<int>)
    ensures forall x :: x in r <==> x in order && x !in gone
    ensures NoDup(order) ==> NoDup(r)
    decreases |order|
  {
    if order == [] then []
    else if order[0] in gone then WithoutIds(order[1..], gone)
    else
      var rest := WithoutIds(order[1..], gone);
      assert order == [order[0]] + order[1..];
      [order[0]] + rest
  }

  /** Deleting keys works piece by piece, so the keys that stay keep their
      insertion order: deleting from an order split anywhere is deleting from
      each part. */
  lemma {:induction false} WithoutIdsAppend(a: seq<int>, b: seq<int>, gone: set<int>)
    ensures WithoutIds(a + b, gone) == WithoutIds(a, gone) + WithoutIds(b, gone)
    decreases |a|
  {
    if a != [] {
      var ab := a + b;
      assert ab[0] == a[0] && ab[1..] == a[1..] + b;
      WithoutIdsAppend(a[1..], b, gone);
      if a[0] in gone {
        assert WithoutIds(ab, gone) == WithoutIds(ab[1..], gone);
        assert WithoutIds(a, gone) == WithoutIds(a[1..], gone);
      } else {
        assert WithoutIds(ab, gone) == [a[0]] + WithoutIds(ab[1..], gone);
        assert WithoutIds(a, gone) == [a[0]] + WithoutIds(a[1..], gone);
      }
    } else {
      assert a + b == b;
    }
  }

  /** A single key stays exactly when it is not deleted. */
  lemma WithoutIdsSingle(x: int, gone: set<int>)
    ensures WithoutIds([x], gone) == if x in gone then [] else [x]
  {
    assert [x][1..] == [];
  }

  /** `cleanupOldGames()`: removes exactly the expired games and releases
      their race keys; everything else stays. */
  function CleanupOldGames(reg: Registry, now: int): (r: Registry)
    ensures forall sid :: sid in r.games <==> sid in reg.games && !Expired(reg.games[sid], now)
    ensures forall sid :: sid in r.games ==> r.games[sid] == reg.games[sid]
    ensures forall sid :: sid in reg.games && reg.games[sid].status != Finished ==> sid in r.games
    ensures r.raceKeys == reg.raceKeys - (set sid | sid in reg.games && Expired(reg.games[sid], now) :: reg.games[sid].raceKey)
    ensures r.players == reg.players
    ensures forall sid :: sid in r.order <==> sid in reg.order && !(sid in reg.games && Expired(reg.games[sid], now))
  {
    var gone := set sid | sid in reg.games && Expired(reg.games[sid], now);
    Registry(
      reg.games - gone,
      WithoutIds(reg.order, gone),
      reg.players,
      reg.raceKeys - (set sid | sid in gone :: reg.games[sid].raceKey))
  }

  // ---------------------------------------------------------------------------
  // getServerStats

  datatype ServerStats = ServerStats(
    totalGames: nat, activeGames: nat, waitingGames: nat, finishedGames: nat,
    totalPlayers: nat, onlinePlayers: nat)

  function GamesIn(games: map<int, Game>, s: Status): set<int> {
    set sid | sid in games && games[sid].status == s
  }

  /** The ids of the players marked online. */
  function OnlineIn(players: map<string, Player>): set<string> {
    set pid | pid in players && players[pid].isOnline
  }

  /** Every game has exactly one of the three statuses. */
  lemma StatusPartition(games: map<int, Game>)
    ensures |games| == |GamesIn(games, Active)| + |GamesIn(games, Waiting)| + |GamesIn(games, Finished)|
  {
    var a, w, f := GamesIn(games, Active), GamesIn(games, Waiting), GamesIn(games, Finished);
    forall sid | sid in games ensures sid in a + w + f {
      match games[sid].status
      case Active => assert sid in a;
      case Waiting => assert sid in w;
      case Finished => assert sid in f;
    }
    assert games.Keys == a + w + f;
    assert a * w == {};
    assert (a + w) * f == {};
    assert |games.Keys| == |games|;
  }

  lemma SubsetSize<T>(a: set<T>, b: set<T>)
    requires a <= b
    ensures |a| <= |b|
  {
    assert b == a + (b - a);
  }

  /** `getServerStats()`, without the random `averageWaitTime`: the three status
      counts partition the games, and the online count is the number of
      players marked online. */
  function GetServerStats(reg: Registry): (s: ServerStats)
    ensures s.totalGames == |reg.games| && s.totalPlayers == |reg.players|
    ensures s.totalGames == s.activeGames + s.waitingGames + s.finishedGames
    ensures s.activeGames == |GamesIn(reg.games, Active)|
    ensures s.waitingGames == |GamesIn(reg.games, Waiting)|
    ensures s.finishedGames == |GamesIn(reg.games, Finished)|
    ensures s.onlinePlayers == |OnlineIn(reg.players)| <= s.totalPlayers
    ensures (forall q :: q in reg.players ==> reg.players[q].isOnline) ==> s.onlinePlayers == s.totalPlayers
    ensures (forall q :: q in reg.players ==> !reg.players[q].isOnline) ==> s.onlinePlayers == 0
  {
    var online := OnlineIn(reg.players);
    assert (forall q :: q in reg.players ==> reg.players[q].isOnline) ==> online == reg.players.Keys;
    assert (forall q :: q in reg.players ==> !reg.players[q].isOnline) ==> online == {};
    StatusPartition(reg.games);
    SubsetSize(online, reg.players.Keys);
    assert |reg.players.Keys| == |reg.players|;
    ServerStats(
      |reg.games|, |GamesIn(reg.games, Active)|, |GamesIn(reg.games, Waiting)|, |GamesIn(reg.games, Finished)|,
      |reg.players|, |online|)
  }
}

=== FILE: identity.dfy ===
/** How a request is tied to a platform id.  The session-token map that
    `server.js` consults through `getPlatformIdByToken` and `sessionTokenMap`
    is not defined by the `GameSession` class, so here it is an explicit
    `map<string, string>` from token to platform id.  A token mapped to the
    empty string is falsy and counts as unmapped. */
module Identity {
  import opened Common

  const FallbackPrefix := "player_"
  const SteamPrefix := "steam_"
  /** `index.js` keeps this many leading characters of a token. */
  const TokenPrefixLength := 16

  /** `player_` followed by the client address with every character outside
      `[a-zA-Z0-9]` replaced by `_`. */
  function FallbackId(ip: string): (r: string)
    ensures |r| == |FallbackPrefix| + |ip|
    ensures r[..|FallbackPrefix|] == FallbackPrefix
    ensures forall i :: |FallbackPrefix| <= i < |r| ==> IsAlnum(r[i]) || r[i] == '_'
  {
    var r := FallbackPrefix + Sanitize(ip);
    assert forall i :: |FallbackPrefix| <= i < |r| ==> r[i] == Sanitize(ip)[i - |FallbackPrefix|];
    r
  }

  /** Two addresses share a fallback identity exactly when they sanitise alike. */
  lemma FallbackIdSame(a: string, b: string)
    ensures FallbackId(a) == FallbackId(b) <==> Sanitize(a) == Sanitize(b)
  {
    if FallbackId(a) == FallbackId(b) {
      assert Sanitize(a) == FallbackId(a)[|FallbackPrefix|..];
      assert Sanitize(b) == FallbackId(b)[|FallbackPrefix|..];
    }
  }

  /** The display name a matchmaking request registers a new player under:
      `Player_` and characters 7 to 14 of the platform id. */
  function GuestName(pid: string): string {
    "Player_" + Substring(pid, 7, 15)
  }

  /** For a fallback identity the guest name shows the first eight characters
      of the sanitised address. */
  lemma GuestNameOfFallback(ip: string)
    ensures GuestName(FallbackId(ip)) == "Player_" + Substring(Sanitize(ip), 0, 8)
  {
    var pid := FallbackId(ip);
    assert pid[7..] == Sanitize(ip);
  }

  /** The `steam_` prefix is one character shorter than `player_`, so the
      guest name of a token identity skips the token's first character. */
  lemma GuestNameOfToken(token: string)
    ensures GuestName(SteamPrefix + token) == "Player_" + Substring(token, 1, 9)
  {
    var pid := SteamPrefix + token;
    assert pid[|SteamPrefix|..] == token;
    if |token| >= 9 {
      assert pid[7..15] == token[1..9];
    } else if |token| >= 1 {
      assert pid[7..|pid|] == token[1..|token|];
    }
  }

  /** The token of a request is mapped to a (non-empty) platform id. */
  predicate Mapped(tokens: map<string, string>, token: Option<string>) {
    Truthy(token) && token.value in tokens && tokens[token.value] != ""
  }

  /** Identity resolution of `CancelMatchmaking` and `AddPoints` in `server.js`:
      the mapped platform id, otherwise the fallback identity.  Nothing is
      registered and no token is rejected. */
  function LookupIdentity(tokens: map<string, string>, token: Option<string>, ip: string): (pid: string)
    ensures Mapped(tokens, token) ==> pid == tokens[token.value]
    ensures !Mapped(tokens, token) ==> pid == FallbackId(ip)
  {
    if Mapped(tokens, token) then tokens[token.value] else FallbackId(ip)
  }

  /** Identity of `index.js`: `steam_` and the first sixteen characters of a
      token, or the fallback identity when there is no token. */
  function LegacyPlatformId(token: Option<string>, ip: string): (pid: string)
    ensures Truthy(token) ==> pid == SteamPrefix + Substring(token.value, 0, TokenPrefixLength)
    ensures !Truthy(token) ==> pid == FallbackId(ip)
  {
    if Truthy(token) then SteamPrefix + Substring(token.value, 0, TokenPrefixLength) else FallbackId(ip)
  }

  /** Tokens that agree on their first sixteen characters name one player. */
  lemma LegacyTokenPrefixCollision(t1: string, t2: string, ip1: string, ip2: string)
    requires |t1| >= TokenPrefixLength && |t2| >= TokenPrefixLength
    requires t1[..TokenPrefixLength] == t2[..TokenPrefixLength]
    ensures LegacyPlatformId(Some(t1), ip1) == LegacyPlatformId(Some(t2), ip2)
  {
  }

  /** A token identity and an address identity are never the same player. */
  lemma LegacyIdentitiesDisjoint(token: string, ip1: string, ip2: string)
    requires token != ""
    ensures LegacyPlatformId(Some(token), ip1) != LegacyPlatformId(None, ip2)
  {
    var a := LegacyPlatformId(Some(token), ip1);
    var b := LegacyPlatformId(None, ip2);
    assert a[5] == '_' && b[5] == 'r';
  }
}

=== FILE: legacy.dfy ===
/** The older handlers of `index.js`.  Identity comes from the first sixteen
    characters of the session token (no token map), an existing record is
    never re-registered, only a waiting current game is handed back (there
    is no staleness window), and the reply reports the requester's roster
    team and the game's own lobby ids. */
module Legacy {
  import opened Common
  import opened GameSession
  import opened RegistryInvariant
  import opened Identity
  import opened Matchmaking
  import opened Scoring

  /** The requested game type, or `RankedRace` when it is missing or empty. */
  function LegacyGameTypeOf(req: MatchRequest): string {
    OrElse(req.gameType, "RankedRace")
  }

  /** A record is created only for an unknown identity; a known one is left
      as it is. */
  function EnsureRegistered(reg: Registry, pid: string, token: Option<string>, now: int, startPoints: int): (r: Registry)
    requires MinStartPoints <= startPoints <= MaxStartPoints
    ensures pid in r.players
    ensures pid in reg.players ==> r == reg
    ensures pid !in reg.players ==>
      && r.games == reg.games && r.order == reg.order && r.raceKeys == reg.raceKeys
      && r.players == reg.players[pid := r.players[pid]]
      && r.players[pid].displayName == GuestName(pid) && r.players[pid].sessionToken == token
      && r.players[pid].currentGameId == None && r.players[pid].totalGames == 0 && r.players[pid].wins == 0
  {
    if pid in reg.players then reg else RegisterPlayer(reg, pid, Some(GuestName(pid)), token, now, startPoints)
  }

  /** Only a waiting current game is handed back; any other reference is
      cleared. */
  function LegacyReuse(reg: Registry, pid: string): (r: (Registry, Option<int>))
    ensures r.1.Some? <==>
      && pid in reg.players && HasGameRef(reg.players[pid])
      && reg.players[pid].currentGameId.value in reg.games
      && reg.games[reg.players[pid].currentGameId.value].status == Waiting
    ensures r.1.Some? ==> r.0 == reg && r.1.value == reg.players[pid].currentGameId.value
    ensures r.1.None? && pid in reg.players && HasGameRef(reg.players[pid]) ==>
      r.0 == reg.(players := reg.players[pid := reg.players[pid].(currentGameId := None)])
    ensures r.1.None? && !(pid in reg.players && HasGameRef(reg.players[pid])) ==> r.0 == reg
  {
    if pid in reg.players && HasGameRef(reg.players[pid]) then
      var p := reg.players[pid];
      var sid := p.currentGameId.value;
      if sid in reg.games && reg.games[sid].status == Waiting then (reg, Some(sid))
      else (reg.(players := reg.players[pid := p.(currentGameId := None)]), None)
    else (reg, None)
  }

  /** The reply when the requester is missing from the roster of its game. */
  function LegacyFallbackReply(ent: Entropy): Reply {
    Matched(ent.replySessionId, ent.replyRaceKey, 1, true, 0, FallbackGameLobbyId, FallbackGroupLobbyId)
  }

  /** The regular reply: the requester's own roster entry decides host flag
      and team, and the lobby ids are the game's. */
  function LegacyReplyFor(g: Game, pid: string, ent: Entropy): (r: Reply)
    ensures r.Matched?
    ensures pid in Ids(g.players) ==>
      && r.sessionId == g.sessionId && r.raceKey == g.raceKey && r.groupSize == |g.players|
      && r.gameLobbyId == g.gameLobbyId && r.groupLobbyId == g.groupLobbyId
      && exists e :: e in g.players && e.platformId == pid && r.isHost == e.isHost && r.team == e.team
    ensures pid !in Ids(g.players) ==> r == LegacyFallbackReply(ent)
  {
    match FindEntry(g.players, pid)
    case Some(entry) => Matched(g.sessionId, g.raceKey, |g.players|, entry.isHost, entry.team, g.gameLobbyId, g.groupLobbyId)
    case None => LegacyFallbackReply(ent)
  }

  /** The `EnterMatchmaking2` handler of `index.js`. */
  function LegacyEnterMatchmaking(reg: Registry, req: MatchRequest, ip: string, now: int, ent: Entropy): (r: (Registry, Reply))
    requires EntropyFits(reg, ent)
    ensures r.1.Matched?
    ensures reg.raceKeys <= r.0.raceKeys
    ensures var pid := LegacyPlatformId(req.sessionToken, ip);
      && pid in r.0.players
      && r.0.players.Keys == reg.players.Keys + {pid}
      && (forall q :: q in reg.players && q != pid ==> r.0.players[q] == reg.players[q])
      && (pid in reg.players ==> r.0.players[pid] == reg.players[pid].(currentGameId := r.0.players[pid].currentGameId))
  {
    var pid := LegacyPlatformId(req.sessionToken, ip);
    var reg1 := EnsureRegistered(reg, pid, req.sessionToken, now, ent.startPoints);
    var (reg2, reuse) := LegacyReuse(reg1, pid);
    if reuse.Some? then (reg2, LegacyReplyFor(reg2.games[reuse.value], pid, ent))
    else
      var e := JoinOrCreate(reg2, pid, Some(LegacyGameTypeOf(req)), RuleSetOf(req), RankingOf(req), req.gameLobbyId, req.groupLobbyId, now, ent.draws);
      assert e.result.Ok?;
      (e.reg, LegacyReplyFor(e.result.value, pid, ent))
  }

  lemma {:induction false} LegacyReusePreservesValid(reg: Registry, pid: string)
    requires Valid(reg)
    ensures Valid(LegacyReuse(reg, pid).0)
  {
    var r := LegacyReuse(reg, pid).0;
    forall q | q in r.players && r.players[q].currentGameId.Some?
      ensures RefOk(r, q, r.players[q].currentGameId.value)
    {
      assert RefOk(reg, q, r.players[q].currentGameId.value);
    }
  }

  /** With unused session ids in the draws, a request keeps the invariant. */
  lemma {:induction false} LegacyEnterPreservesValid(reg: Registry, req: MatchRequest, ip: string, now: int, ent: Entropy)
    requires Valid(reg) && EntropyFits(reg, ent)
    requires ent.draws.create.sessionId !in reg.games && ent.draws.fallback.sessionId !in reg.games
    ensures Valid(LegacyEnterMatchmaking(reg, req, ip, now, ent).0)
  {
    var pid := LegacyPlatformId(req.sessionToken, ip);
    var reg1 := EnsureRegistered(reg, pid, req.sessionToken, now, ent.startPoints);
    if pid !in reg.players {
      RegisterPreservesValid(reg, pid, Some(GuestName(pid)), req.sessionToken, now, ent.startPoints);
    }
    LegacyReusePreservesValid(reg1, pid);
    var (reg2, reuse) := LegacyReuse(reg1, pid);
    if reuse.None? {
      JoinOrCreatePreservesValid(reg2, pid, Some(LegacyGameTypeOf(req)), RuleSetOf(req), RankingOf(req), req.gameLobbyId, req.groupLobbyId, now, ent.draws);
    }
  }

  /** Under the invariant the reply describes a stored game whose roster
      holds the requester, with that entry's host flag and team. */
  lemma {:induction false} LegacyRostersRequester(reg: Registry, req: MatchRequest, ip: string, now: int, ent: Entropy)
    requires Valid(reg) && EntropyFits(reg, ent)
    ensures var pid := LegacyPlatformId(req.sessionToken, ip);
      var r := LegacyEnterMatchmaking(reg, req, ip, now, ent);
      && r.1.sessionId in r.0.games
      && var g := r.0.games[r.1.sessionId];
      && r.1.raceKey == g.raceKey && r.1.groupSize == |g.players|
      && r.1.gameLobbyId == g.gameLobbyId && r.1.groupLobbyId == g.groupLobbyId
      && (exists e :: e in g.players && e.platformId == pid && r.1.isHost == e.isHost && r.1.team == e.team)
  {
    var pid := LegacyPlatformId(req.sessionToken, ip);
    var reg1 := EnsureRegistered(reg, pid, req.sessionToken, now, ent.startPoints);
    if pid !in reg.players {
      RegisterPreservesValid(reg, pid, Some(GuestName(pid)), req.sessionToken, now, ent.startPoints);
    }
    LegacyReusePreservesValid(reg1, pid);
    var (reg2, reuse) := LegacyReuse(reg1, pid);
    if reuse.Some? {
      assert RefOk(reg1, pid, reuse.value);
    } else {
      JoinOrCreateStored(reg2, pid, Some(LegacyGameTypeOf(req)), RuleSetOf(req), RankingOf(req), req.gameLobbyId, req.groupLobbyId, now, ent.draws);
    }
  }

  /** A known requester whose current game is waiting gets it back and
      nothing changes. */
  lemma {:induction false} LegacyWaitingReconnect(reg: Registry, req: MatchRequest, ip: string, now: int, ent: Entropy)
    requires Valid(reg) && EntropyFits(reg, ent)
    requires var pid := LegacyPlatformId(req.sessionToken, ip);
      && pid in reg.players && HasGameRef(reg.players[pid])
      && reg.players[pid].currentGameId.value in reg.games
      && reg.games[reg.players[pid].currentGameId.value].status == Waiting
    ensures var sid := reg.players[LegacyPlatformId(req.sessionToken, ip)].currentGameId.value;
      var r := LegacyEnterMatchmaking(reg, req, ip, now, ent);
      && r.0 == reg && r.1.sessionId == sid && r.1.raceKey == reg.games[sid].raceKey
  {
    var pid := LegacyPlatformId(req.sessionToken, ip);
    assert RefOk(reg, pid, reg.players[pid].currentGameId.value);
  }

  /** There is no staleness window: a current game that is active, however
      recently started, is left exactly as it was, and the requester is
      matched into another game. */
  lemma {:induction false} LegacyActiveGameLeft(reg: Registry, req: MatchRequest, ip: string, now: int, ent: Entropy)
    requires Valid(reg) && EntropyFits(reg, ent)
    requires ent.draws.create.sessionId !in reg.games && ent.draws.fallback.sessionId !in reg.games
    requires var pid := LegacyPlatformId(req.sessionToken, ip);
      && pid in reg.players && HasGameRef(reg.players[pid])
      && reg.players[pid].currentGameId.value in reg.games
      && reg.games[reg.players[pid].currentGameId.value].status == Active
    ensures var pid := LegacyPlatformId(req.sessionToken, ip);
      var sid := reg.players[pid].currentGameId.value;
      var r := LegacyEnterMatchmaking(reg, req, ip, now, ent);
      && sid in r.0.games && r.0.games[sid] == reg.games[sid]
      && r.1.sessionId != sid
      && r.0.players[pid].currentGameId != Some(sid)
  {
    var pid := LegacyPlatformId(req.sessionToken, ip);
    var sid := reg.players[pid].currentGameId.value;
    LegacyReusePreservesValid(reg, pid);
    var (reg2, reuse) := LegacyReuse(reg, pid);
    var gt := Some(LegacyGameTypeOf(req));
    var avail := GetAvailableGames(reg2, gt, Some(RankingOf(req)));
    if avail != [] {
      JoinOrCreateJoins(reg2, pid, gt, RuleSetOf(req), RankingOf(req), req.gameLobbyId, req.groupLobbyId, now, ent.draws);
      NewestAvailable(reg2, gt, Some(RankingOf(req)));
      assert avail[0].sessionId != sid;
    } else {
      JoinOrCreateCreates(reg2, pid, gt, RuleSetOf(req), RankingOf(req), req.gameLobbyId, req.groupLobbyId, now, ent.draws);
    }
  }

  /** `AddPoints` of `index.js`: the same scoring, with the token-prefix
      identity. */
  function LegacyAddPoints(reg: Registry, req: PointsRequest, ip: string, now: int, randomTotal: int): (r: (Registry, PointsReply))
    requires MinStartPoints <= randomTotal <= MaxStartPoints
    ensures r.0.players.Keys == reg.players.Keys
    ensures var pid := LegacyPlatformId(req.sessionToken, ip);
      && (pid in reg.players ==> r.1.points == r.0.players[pid].points)
      && (pid !in reg.players ==> r.1.points == randomTotal)
    ensures r.1.rank == Rank(r.1.points) && r.1.division == Division(r.1.rank) && r.1.season == ReplySeason
  {
    ScoreRace(
      reg, LegacyPlatformId(req.sessionToken, ip),
      IntOr(req.points, DefaultPoints), IntOr(req.level, DefaultLevel), IntOr(req.prestige, DefaultPrestige),
      req.raceKey, now, randomTotal)
  }
}

=== FILE: matchmaking.dfy ===
/** The join-or-create step both `EnterMatchmaking2` handlers share once the
    requester has no game to return to: join the newest available game that
    matches the requested game type and ranking, otherwise create one with
    the requester as host, and after any thrown error create one anyway.  It
    also holds the reply the two handlers send. */
module Matchmaking {
  import opened Common
  import opened GameSession
  import opened RegistryInvariant

  /** The random values of one join-or-create: the draw of the `createGame`
      call and the draw of the fallback `createGame` after a thrown error. */
  datatype MatchDraws = MatchDraws(create: CreateDraw, fallback: CreateDraw)

  /** Every key a create draw may settle on. */
  function DrawKeys(d: CreateDraw): set<string> {
    set c | c in d.keyCandidates
  }

  /** Both race-key retry loops stop: the first against the current key set,
      the fallback against that set plus any key the first may have taken. */
  predicate DrawsFit(reg: Registry, m: MatchDraws) {
    HasFresh(reg.raceKeys, m.create.keyCandidates) && HasFresh(reg.raceKeys + DrawKeys(m.create), m.fallback.keyCandidates)
  }

  /** The fields of an `EnterMatchmaking2` body the handlers read; `None`
      is an absent field. */
  datatype MatchRequest = MatchRequest(
    sessionToken: Option<string>,
    groupLobbyId: Option<string>,
    gameLobbyId: Option<string>,
    gameType: Option<string>,
    ruleSet: Option<string>,
    ranking: Option<string>)

  function RuleSetOf(req: MatchRequest): string {
    OrElse(req.ruleSet, "Race")
  }

  function RankingOf(req: MatchRequest): string {
    OrElse(req.ranking, "NotRanked")
  }

  /** The random values one matchmaking request may consume: the starting
      points of a new record, the draws of join-or-create, and the session id
      and race key of a canned reply. */
  datatype Entropy = Entropy(startPoints: int, draws: MatchDraws, replySessionId: int, replyRaceKey: string)

  predicate EntropyFits(reg: Registry, ent: Entropy) {
    MinStartPoints <= ent.startPoints <= MaxStartPoints && DrawsFit(reg, ent.draws)
  }

  /** A current-game reference is truthy: present and not zero. */
  predicate HasGameRef(p: Player) {
    p.currentGameId.Some? && p.currentGameId.value != 0
  }

  /** The `<MatchmakingResult>` of a matchmaking request. */
  datatype Reply =
    | Matched(sessionId: int, raceKey: string, groupSize: int, isHost: bool, team: int, gameLobbyId: string, groupLobbyId: string)
    | BattleMode(
        sessionId: int, raceKey: string, groupSize: int, isHost: bool, team: int, hostPlatformId: string,
        echoedGameLobbyId: Option<string>, echoedGroupLobbyId: Option<string>, gameType: string)
    | SessionExpired
    | InternalError

  /** The host platform id every battle-mode reply names. */
  const BattleHostPlatformId := "steam_AQAAAAIAAADKOgoA"

  /** The lobby ids of the reply sent when the requester is missing from the
      roster of the game it was given. */
  const FallbackGameLobbyId := "109775241628860699"
  const FallbackGroupLobbyId := "109775241626724054"

  /** The `try`/`catch` around `getAvailableGames`, `joinGame` and `createGame`. */
  function JoinOrCreate(
    reg: Registry, pid: string, gameType: Option<string>, ruleSet: string, ranking: string,
    gameLobbyId: Option<string>, groupLobbyId: Option<string>, now: int, m: MatchDraws): (e: Effect<Game>)
    requires DrawsFit(reg, m)
    ensures e.result.Err? <==> pid !in reg.players
    ensures e.result.Err? ==> e.reg.games == reg.games && e.reg.order == reg.order && e.reg.players == reg.players
    ensures reg.raceKeys <= e.reg.raceKeys
    ensures e.reg.players.Keys == reg.players.Keys
    ensures forall q :: q in reg.players && q != pid ==> e.reg.players[q] == reg.players[q]
    ensures pid in reg.players ==> e.reg.players[pid] == reg.players[pid].(currentGameId := e.reg.players[pid].currentGameId)
    ensures e.result.Ok? ==> pid in Ids(e.result.value.players) && e.result.value.status == Waiting
  {
    var avail := GetAvailableGames(reg, gameType, Some(ranking));
    var first :=
      if |avail| > 0 then JoinGame(reg, avail[0].sessionId, pid, now)
      else CreateGame(reg, pid, gameType, Some(ruleSet), Some(ranking), gameLobbyId, groupLobbyId, now, m.create);
    assert first.result.Ok? && |avail| == 0 ==> Ids(first.result.value.players)[0] == pid;
    if first.result.Ok? then first
    else
      assert HasFresh(first.reg.raceKeys, m.fallback.keyCandidates) by {
        var i :| 0 <= i < |m.fallback.keyCandidates| && m.fallback.keyCandidates[i] !in reg.raceKeys + DrawKeys(m.create);
        assert first.reg.raceKeys <= reg.raceKeys + DrawKeys(m.create);
      }
      var second := CreateGame(first.reg, pid, gameType, Some(ruleSet), Some(ranking), gameLobbyId, groupLobbyId, now, m.fallback);
      assert second.result.Ok? ==> Ids(second.result.value.players)[0] == pid;
      second
  }

  /** The game handed back is the one stored under its session id. */
  lemma {:induction false} JoinOrCreateStored(
    reg: Registry, pid: string, gameType: Option<string>, ruleSet: string, ranking: string,
    gameLobbyId: Option<string>, groupLobbyId: Option<string>, now: int, m: MatchDraws)
    requires DrawsFit(reg, m) && WellFormed(reg)
    ensures var e := JoinOrCreate(reg, pid, gameType, ruleSet, ranking, gameLobbyId, groupLobbyId, now, m);
      e.result.Ok? ==> e.result.value.sessionId in e.reg.games && e.reg.games[e.result.value.sessionId] == e.result.value
  {
    var avail := GetAvailableGames(reg, gameType, Some(ranking));
    if |avail| > 0 {
      assert avail[0] in avail;
      var joined := JoinGame(reg, avail[0].sessionId, pid, now);
      if joined.result.Ok? {
        assert joined.result.value.sessionId == avail[0].sessionId;
      }
    }
  }

  /** The game joined is the newest of the available games: it is stored
      under its own id, passes the filter, and no matching game is newer. */
  lemma {:induction false} NewestAvailable(reg: Registry, gameType: Option<string>, ranking: Option<string>)
    requires WellFormed(reg) && GetAvailableGames(reg, gameType, ranking) != []
    ensures var g := GetAvailableGames(reg, gameType, ranking)[0];
      && g.sessionId in reg.games && reg.games[g.sessionId] == g
      && Available(g, gameType, ranking)
      && (forall sid :: sid in reg.games && Available(reg.games[sid], gameType, ranking) ==> reg.games[sid].createdAt <= g.createdAt)
  {
    var avail := GetAvailableGames(reg, gameType, ranking);
    var g := avail[0];
    assert g in avail;
    forall s | s in reg.games && Available(reg.games[s], gameType, ranking)
      ensures reg.games[s].createdAt <= g.createdAt
    {
      assert reg.games[s] in avail;
      var j :| 0 <= j < |avail| && avail[j] == reg.games[s];
      if j > 0 { assert avail[0].createdAt >= avail[j].createdAt; }
    }
  }

  /** With a matching game available the requester joins the first (newest)
      one: no race key is consumed, the roster only grows at its end, and a
      requester not yet on it is appended as a non-host. */
  lemma {:induction false} JoinOrCreateJoins(
    reg: Registry, pid: string, gameType: Option<string>, ruleSet: string, ranking: string,
    gameLobbyId: Option<string>, groupLobbyId: Option<string>, now: int, m: MatchDraws)
    requires DrawsFit(reg, m) && WellFormed(reg) && pid in reg.players
    requires GetAvailableGames(reg, gameType, Some(ranking)) != []
    ensures var g := GetAvailableGames(reg, gameType, Some(ranking))[0];
      var e := JoinOrCreate(reg, pid, gameType, ruleSet, ranking, gameLobbyId, groupLobbyId, now, m);
      && e.result.Ok? && e.result.value.sessionId == g.sessionId
      && e.reg.raceKeys == reg.raceKeys && e.reg.order == reg.order
      && e.reg.games == reg.games[g.sessionId := e.result.value]
      && e.result.value.players[..|g.players|] == g.players
      && (pid !in Ids(g.players) ==>
            && e.result.value.players == g.players + [RosterEntry(pid, reg.players[pid].displayName, |g.players| / SquadSize, false, now)]
            && e.reg.players[pid].currentGameId == Some(g.sessionId))
  {
    var g := GetAvailableGames(reg, gameType, Some(ranking))[0];
    assert g in GetAvailableGames(reg, gameType, Some(ranking));
    var joined := JoinGame(reg, g.sessionId, pid, now);
    assert joined.result.Ok?;
    assert JoinOrCreate(reg, pid, gameType, ruleSet, ranking, gameLobbyId, groupLobbyId, now, m) == joined;
  }

  /** With no matching game available the requester hosts a new waiting game
      under the first draw's session id. */
  lemma {:induction false} JoinOrCreateCreates(
    reg: Registry, pid: string, gameType: Option<string>, ruleSet: string, ranking: string,
    gameLobbyId: Option<string>, groupLobbyId: Option<string>, now: int, m: MatchDraws)
    requires DrawsFit(reg, m) && WellFormed(reg) && pid in reg.players
    requires GetAvailableGames(reg, gameType, Some(ranking)) == []
    ensures var e := JoinOrCreate(reg, pid, gameType, ruleSet, ranking, gameLobbyId, groupLobbyId, now, m);
      && (forall sid :: sid in reg.games ==> !Available(reg.games[sid], gameType, Some(ranking)))
      && e.result.Ok?
      && e.result.value.sessionId == m.create.sessionId
      && e.result.value.players == [RosterEntry(pid, reg.players[pid].displayName, 0, true, now)]
      && e.result.value.hostPlatformId == pid
      && e.result.value.ruleSet == ruleSet && e.result.value.ranking == ranking
      && e.result.value.raceKey !in reg.raceKeys
      && e.reg.games == reg.games[m.create.sessionId := e.result.value]
      && e.reg.players[pid].currentGameId == Some(m.create.sessionId)
  {
  }

  lemma {:induction false} JoinOrCreatePreservesValid(
    reg: Registry, pid: string, gameType: Option<string>, ruleSet: string, ranking: string,
    gameLobbyId: Option<string>, groupLobbyId: Option<string>, now: int, m: MatchDraws)
    requires Valid(reg) && DrawsFit(reg, m)
    requires m.create.sessionId !in reg.games && m.fallback.sessionId !in reg.games
    ensures Valid(JoinOrCreate(reg, pid, gameType, ruleSet, ranking, gameLobbyId, groupLobbyId, now, m).reg)
  {
    var avail := GetAvailableGames(reg, gameType, Some(ranking));
    var first :=
      if |avail| > 0 then JoinGame(reg, avail[0].sessionId, pid, now)
      else CreateGame(reg, pid, gameType, Some(ruleSet), Some(ranking), gameLobbyId, groupLobbyId, now, m.create);
    if |avail| > 0 {
      JoinPreservesValid(reg, avail[0].sessionId, pid, now);
    } else {
      CreatePreservesValid(reg, pid, gameType, Some(ruleSet), Some(ranking), gameLobbyId, groupLobbyId, now, m.create);
    }
    if first.result.Err? {
      assert first.reg.games == reg.games;
      assert HasFresh(first.reg.raceKeys, m.fallback.keyCandidates) by {
        var i :| 0 <= i < |m.fallback.keyCandidates| && m.fallback.keyCandidates[i] !in reg.raceKeys + DrawKeys(m.create);
        assert first.reg.raceKeys <= reg.raceKeys + DrawKeys(m.create);
      }
      CreatePreservesValid(first.reg, pid, gameType, Some(ruleSet), Some(ranking), gameLobbyId, groupLobbyId, now, m.fallback);
    }
  }
}

=== FILE: registry_invariant.dfy ===
/** The invariant the `GameSession` mutators keep: every roster is within
    capacity and lists each identity once, live games hold distinct race keys
    that are all in the key set, and a player's current-game reference always
    names a live, un-ended game whose roster contains that player.  Each
    mutator is proved to preserve it; `createGame` needs its drawn session id
    to be unused, since a colliding id overwrites the older game. */
module RegistryInvariant {
  import opened Common
  import opened GameSession

  ghost predicate GameOk(g: Game) {
    && g.maxPlayers == MaxPlayers
    && |g.players| <= g.maxPlayers
    && NoDup(Ids(g.players))
    && (g.status == Waiting ==> g.endedAt == None)
  }

  /** The game `sid` is live, has not been ended, and rosters `pid`. */
  ghost predicate RefOk(reg: Registry, pid: string, sid: int) {
    sid in reg.games && pid in Ids(reg.games[sid].players) && reg.games[sid].endedAt == None
  }

  ghost predicate Valid(reg: Registry) {
    && WellFormed(reg)
    && (forall sid :: sid in reg.games ==> GameOk(reg.games[sid]) && reg.games[sid].raceKey in reg.raceKeys)
    && (forall a, b :: a in reg.games && b in reg.games && a != b ==> reg.games[a].raceKey != reg.games[b].raceKey)
    && (forall pid :: pid in reg.players && reg.players[pid].currentGameId.Some? ==>
          RefOk(reg, pid, reg.players[pid].currentGameId.value))
  }

  /** A process starts with an empty registry. */
  lemma EmptyValid()
    ensures Valid(EmptyRegistry)
  {
  }

  lemma {:induction false} RegisterPreservesValid(
    reg: Registry, pid: string, displayName: Option<string>, token: Option<string>, now: int, startPoints: int)
    requires Valid(reg)
    requires MinStartPoints <= startPoints <= MaxStartPoints
    ensures Valid(RegisterPlayer(reg, pid, displayName, token, now, startPoints))
  {
    var r := RegisterPlayer(reg, pid, displayName, token, now, startPoints);
    forall q | q in r.players && r.players[q].currentGameId.Some?
      ensures RefOk(r, q, r.players[q].currentGameId.value)
    {
      assert q != pid;
      assert r.players[q] == reg.players[q];
    }
  }

  lemma {:induction false} CreatePreservesValid(
    reg: Registry, hostId: string,
    gameType: Option<string>, ruleSet: Option<string>, ranking: Option<string>,
    clientGameLobbyId: Option<string>, clientGroupLobbyId: Option<string>,
    now: int, d: CreateDraw)
    requires Valid(reg)
    requires HasFresh(reg.raceKeys, d.keyCandidates)
    requires d.sessionId !in reg.games
    ensures Valid(CreateGame(reg, hostId, gameType, ruleSet, ranking, clientGameLobbyId, clientGroupLobbyId, now, d).reg)
  {
    var e := CreateGame(reg, hostId, gameType, ruleSet, ranking, clientGameLobbyId, clientGroupLobbyId, now, d);
    var r := e.reg;
    if e.result.Ok? {
      var g := e.result.value;
      var sid := d.sessionId;
      assert Ids(g.players) == [hostId];
      assert GameOk(g);
      assert sid !in reg.order;
      assert NoDup(r.order) by {
        forall i, j | 0 <= i < j < |r.order| ensures r.order[i] != r.order[j] {
          if j == |reg.order| { assert r.order[i] == reg.order[i]; }
        }
      }
      forall a, b | a in r.games && b in r.games && a != b ensures r.games[a].raceKey != r.games[b].raceKey {
        if a == sid { assert r.games[b] == reg.games[b]; }
        else if b == sid { assert r.games[a] == reg.games[a]; }
      }
      forall q | q in r.players && r.players[q].currentGameId.Some?
        ensures RefOk(r, q, r.players[q].currentGameId.value)
      {
        if q != hostId {
          assert r.players[q] == reg.players[q];
          var s := reg.players[q].currentGameId.value;
          assert s != sid;
        } else {
          assert hostId in Ids(g.players);
        }
      }
    }
  }

  lemma {:induction false} JoinPreservesValid(reg: Registry, sid: int, pid: string, now: int)
    requires Valid(reg)
    ensures Valid(JoinGame(reg, sid, pid, now).reg)
  {
    var e := JoinGame(reg, sid, pid, now);
    if e.result.Ok? && pid !in Ids(reg.games[sid].players) {
      var g := reg.games[sid];
      var g' := e.result.value;
      var r := e.reg;
      assert Ids(g'.players) == Ids(g.players) + [pid];
      assert GameOk(g');
      forall a, b | a in r.games && b in r.games && a != b ensures r.games[a].raceKey != r.games[b].raceKey {
        assert reg.games[a].raceKey == r.games[a].raceKey && reg.games[b].raceKey == r.games[b].raceKey;
      }
      forall q | q in r.players && r.players[q].currentGameId.Some?
        ensures RefOk(r, q, r.players[q].currentGameId.value)
      {
        if q != pid {
          var s := reg.players[q].currentGameId.value;
          assert RefOk(reg, q, s);
          if s == sid {
            assert q in Ids(g.players);
            assert q in Ids(g'.players);
          }
        }
      }
    }
  }

  lemma {:induction false} StartPreservesValid(reg: Registry, sid: int, now: int)
    requires Valid(reg)
    ensures Valid(StartGame(reg, sid, now).reg)
  {
    var e := StartGame(reg, sid, now);
    if e.result.Ok? {
      var r := e.reg;
      forall a, b | a in r.games && b in r.games && a != b ensures r.games[a].raceKey != r.games[b].raceKey {
        assert reg.games[a].raceKey == r.games[a].raceKey && reg.games[b].raceKey == r.games[b].raceKey;
      }
      forall q | q in r.players && r.players[q].currentGameId.Some?
        ensures RefOk(r, q, r.players[q].currentGameId.value)
      {
        assert RefOk(reg, q, r.players[q].currentGameId.value);
      }
    }
  }

  lemma {:induction false} EndPreservesValid(reg: Registry, sid: int, results: seq<Standing>, now: int)
    requires Valid(reg)
    ensures Valid(EndGame(reg, sid, results, now).reg)
  {
    var e := EndGame(reg, sid, results, now);
    if e.result.Ok? {
      var r := e.reg;
      var g := reg.games[sid];
      assert GameOk(e.result.value);
      forall a, b | a in r.games && b in r.games && a != b ensures r.games[a].raceKey != r.games[b].raceKey {
        assert reg.games[a].raceKey == r.games[a].raceKey && reg.games[b].raceKey == r.games[b].raceKey;
      }
      forall q | q in r.players ensures r.players[q].platformId == q {
        assert reg.players[q].platformId == q;
      }
      forall q | q in r.players && r.players[q].currentGameId.Some?
        ensures RefOk(r, q, r.players[q].currentGameId.value)
      {
        assert q !in Ids(g.players);
        assert r.players[q] == reg.players[q];
        var s := reg.players[q].currentGameId.value;
        assert RefOk(reg, q, s);
        assert s != sid;
      }
    }
  }

  lemma {:induction false} CleanupPreservesValid(reg: Registry, now: int)
    requires Valid(reg)
    ensures Valid(CleanupOldGames(reg, now))
  {
    var r := CleanupOldGames(reg, now);
    var gone := set sid | sid in reg.games && Expired(reg.games[sid], now);
    forall sid | sid in r.games ensures r.games[sid].raceKey in r.raceKeys {
      assert sid !in gone;
      assert forall s :: s in gone ==> reg.games[s].raceKey != reg.games[sid].raceKey;
    }
    forall q | q in r.players && r.players[q].currentGameId.Some?
      ensures RefOk(r, q, r.players[q].currentGameId.value)
    {
      var s := r.players[q].currentGameId.value;
      assert RefOk(reg, q, s);
      assert !Expired(reg.games[s], now);
    }
  }

  /** Joining a game one is already on changes nothing while the game has
      room: a repeated join returns the same game and the same registry.  The
      capacity check runs before the roster lookup, so once the join has
      filled the game a repeated join throws instead. */
  lemma {:induction false} JoinIdempotent(reg: Registry, sid: int, pid: string, now: int, later: int)
    requires JoinGame(reg, sid, pid, now).result.Ok?
    ensures var once := JoinGame(reg, sid, pid, now);
      |once.result.value.players| < once.result.value.maxPlayers ==>
        JoinGame(once.reg, sid, pid, later) == Effect(once.reg, Ok(once.result.value))
    ensures var once := JoinGame(reg, sid, pid, now);
      |once.result.value.players| >= once.result.value.maxPlayers ==>
        JoinGame(once.reg, sid, pid, later) == Effect(once.reg, Err(GameFull(sid)))
  {
    var once := JoinGame(reg, sid, pid, now);
    assert once.reg.games[sid] == once.result.value;
  }

  /** A second sweep at the same instant finds nothing more to remove. */
  lemma {:induction false} CleanupIdempotent(reg: Registry, now: int)
    ensures CleanupOldGames(CleanupOldGames(reg, now), now).games == CleanupOldGames(reg, now).games
  {
    var once := CleanupOldGames(reg, now);
    var twice := CleanupOldGames(once, now);
    forall sid | sid in once.games ensures sid in twice.games {
      assert !Expired(once.games[sid], now);
    }
  }

  /** Registers `pid` once per entry of `names`, in order. */
  function RegisterAll(reg: Registry, pid: string, names: seq<Option<string>>, token: Option<string>, now: int, startPoints: int): (r: Registry)
    requires MinStartPoints <= startPoints <= MaxStartPoints
    decreases |names|
  {
    if names == [] then reg
    else RegisterAll(RegisterPlayer(reg, pid, names[0], token, now, startPoints), pid, names[1..], token, now, startPoints)
  }

  /** Over any run of registrations of one identity, wins and points never
      change once the record exists, every call after the first counts one
      more game, and the display name is the one the last call gave. */
  lemma {:induction false} RegisterHistory(
    reg: Registry, pid: string, names: seq<Option<string>>, token: Option<string>, now: int, startPoints: int)
    requires MinStartPoints <= startPoints <= MaxStartPoints
    requires names != []
    ensures var r := RegisterAll(reg, pid, names, token, now, startPoints);
      && pid in r.players
      && r.players[pid].displayName == DisplayNameFor(pid, names[|names| - 1])
      && r.players[pid].currentGameId == None
      && (pid in reg.players ==>
            && r.players[pid].wins == reg.players[pid].wins
            && r.players[pid].points == reg.players[pid].points
            && r.players[pid].totalGames == reg.players[pid].totalGames + |names|)
      && (pid !in reg.players ==>
            && r.players[pid].wins == 0
            && MinStartPoints <= r.players[pid].points <= MaxStartPoints
            && r.players[pid].totalGames == |names| - 1)
    decreases |names|
  {
    var next := RegisterPlayer(reg, pid, names[0], token, now, startPoints);
    if |names| > 1 {
      RegisterHistory(next, pid, names[1..], token, now, startPoints);
      assert names[1..][|names[1..]| - 1] == names[|names| - 1];
    }
  }
}

=== FILE: scoring.dfy ===
/** End-of-race scoring, shared by the `AddPoints` handlers of `server.js` and
    `index.js` once each has decided who the requester is: the submitted
    points, level and prestige go to the requester's record, the game holding
    the submitted race key is ended with its roster order as the finishing
    order, and the reply carries the requester's total with the rank and
    division derived from it. */
module Scoring {
  import opened Common
  import opened GameSession
  import opened RegistryInvariant

  /** The `<NewSeason>`/`<OldSeason>` of every points reply. */
  const ReplySeason := 45
  const MaxDivision := 6

  /** The rank of a points total: its whole hundreds, but at least 1.  Dafny's
      `/` with a positive divisor rounds down, as the source's floor does. */
  function Rank(total: int): (r: int)
    ensures r >= 1
    ensures total >= 100 ==> r * 100 <= total < r * 100 + 100
    ensures total < 200 ==> r == 1
  {
    if total / 100 > 1 then total / 100 else 1
  }

  /** The division of a rank: its whole tens, but at most 6. */
  function Division(rank: int): (d: int)
    ensures d <= MaxDivision
    ensures rank >= 0 ==> d >= 0
    ensures 0 <= rank < 70 ==> d * 10 <= rank < d * 10 + 10
    ensures rank >= 60 ==> d == MaxDivision
  {
    if rank / 10 < MaxDivision then rank / 10 else MaxDivision
  }

  /** More points never give a lower rank, and a higher rank never a lower division. */
  lemma RankDivisionMonotone(a: int, b: int)
    requires a <= b
    ensures Rank(a) <= Rank(b)
    ensures Division(Rank(a)) <= Division(Rank(b))
  {
    assert a / 100 <= b / 100;
    assert Rank(a) / 10 <= Rank(b) / 10;
  }

  /** The points `AddPoints` records for the roster entry at `index`: 100
      less twenty per index, but never below 10. */
  function RecordedPoints(index: int): (p: int)
    ensures p >= 10
    ensures index <= 4 ==> p == 100 - 20 * index
    ensures index >= 5 ==> p == 10
  {
    if 100 - index * 20 > 10 then 100 - index * 20 else 10
  }

  /** The results `AddPoints` builds: each roster entry placed at its index
      plus one, with the recorded points of its index. */
  function RosterStandings(roster: seq<RosterEntry>): (r: seq<Standing>)
    ensures |r| == |roster|
    ensures forall i :: 0 <= i < |roster| ==>
      r[i].platformId == roster[i].platformId && r[i].position == i + 1 && r[i].points == RecordedPoints(i)
  {
    seq(|roster|, i requires 0 <= i < |roster| => Standing(roster[i].platformId, i + 1, RecordedPoints(i)))
  }

  /** The recorded points disagree with what `endGame` awards for the same
      place: the host is recorded with 100 and awarded 90, the second place
      gets 80 either way, and from the third to the eighth place the recorded
      value is lower than the award; both are 10 from the ninth place on. */
  lemma RecordedPointsNotAwarded(roster: seq<RosterEntry>, i: int)
    requires 0 <= i < |roster|
    ensures var s := RosterStandings(roster)[i];
      && (i == 0 ==> s.points == 100 && PlacementPoints(s.position) == 90)
      && (i == 1 ==> s.points == PlacementPoints(s.position) == 80)
      && (2 <= i < 8 ==> s.points < PlacementPoints(s.position))
      && (i >= 8 ==> s.points == PlacementPoints(s.position) == 10)
  {
  }

  /** On a roster without repeats each player's result is its own roster place. */
  lemma RosterStandingAt(roster: seq<RosterEntry>, i: int)
    requires NoDup(Ids(roster)) && 0 <= i < |roster|
    ensures FindStanding(RosterStandings(roster), roster[i].platformId) == Some(Standing(roster[i].platformId, i + 1, RecordedPoints(i)))
  {
    var results := RosterStandings(roster);
    var pid := roster[i].platformId;
    assert results[i] in results;
    var found := FindStanding(results, pid);
    var k :| 0 <= k < |results| && results[k] == found.value && forall j :: 0 <= j < k ==> results[j].platformId != pid;
    assert Ids(roster)[k] == Ids(roster)[i];
    assert k == i;
    assert results[i] == Standing(pid, i + 1, RecordedPoints(i));
  }

  /** No session id in `ids` before position `i` names a game holding `key`. */
  predicate NoKeyBefore(games: map<int, Game>, ids: seq<int>, i: int, key: string)
    requires 0 <= i <= |ids|
  {
    forall j :: 0 <= j < i ==> ids[j] !in games || games[ids[j]].raceKey != key
  }

  /** The first session id in `ids` whose game holds race key `key`. */
  function FindInOrder(games: map<int, Game>, ids: seq<int>, key: string): (r: Option<int>)
    ensures r.Some? ==> r.value in games && games[r.value].raceKey == key
    ensures r.None? ==> forall i :: 0 <= i < |ids| && ids[i] in games ==> games[ids[i]].raceKey != key
    ensures r.Some? ==> exists i :: 0 <= i < |ids| && ids[i] == r.value && NoKeyBefore(games, ids, i, key)
    decreases |ids|
  {
    if ids == [] then None
    else if ids[0] in games && games[ids[0]].raceKey == key then Some(ids[0])
    else
      var r := FindInOrder(games, ids[1..], key);
      assert forall i :: 1 <= i < |ids| ==> ids[i] == ids[1..][i - 1];
      assert r.Some? ==> exists i :: 0 <= i < |ids| && ids[i] == r.value && NoKeyBefore(games, ids, i, key) by {
        if r.Some? {
          var i :| 0 <= i < |ids[1..]| && ids[1..][i] == r.value && NoKeyBefore(games, ids[1..], i, key);
          assert ids[i + 1] == r.value;
          forall j | 0 <= j < i + 1 ensures ids[j] !in games || games[ids[j]].raceKey != key {
            if j > 0 { assert ids[j] == ids[1..][j - 1]; }
          }
        }
      }
      r
  }

  /** The search of the games, in map order, for the submitted race key:
      the first game in that order holding it.  An absent key matches no game. */
  function FindByRaceKey(reg: Registry, key: Option<string>): (r: Option<int>)
    ensures key.None? ==> r.None?
    ensures r.Some? ==> r.value in reg.games && reg.games[r.value].raceKey == key.value
    ensures WellFormed(reg) && key.Some? && r.None? ==> forall sid :: sid in reg.games ==> reg.games[sid].raceKey != key.value
    ensures r.Some? ==> exists i :: 0 <= i < |reg.order| && reg.order[i] == r.value && NoKeyBefore(reg.games, reg.order, i, key.value)
  {
    if key.None? then None else FindInOrder(reg.games, reg.order, key.value)
  }

  datatype PointsReply = PointsReply(points: int, rank: int, division: int, season: int)

  /** The fields of an `AddPoints` body, already parsed as integers; `None`
      is an absent or empty field, which reads as the field's default. */
  datatype PointsRequest = PointsRequest(
    sessionToken: Option<string>, raceKey: Option<string>,
    points: Option<int>, level: Option<int>, prestige: Option<int>)

  const DefaultPoints := 0
  const DefaultLevel := 1
  const DefaultPrestige := 0

  function IntOr(x: Option<int>, default: int): int {
    if x.Some? then x.value else default
  }

  /** The requester's record after the submitted points, level and prestige. */
  function Credit(reg: Registry, pid: string, points: int, level: int, prestige: int): (r: Registry)
    ensures r.games == reg.games && r.order == reg.order && r.raceKeys == reg.raceKeys
    ensures r.players.Keys == reg.players.Keys
    ensures forall q :: q in reg.players && q != pid ==> r.players[q] == reg.players[q]
    ensures pid in reg.players ==>
      r.players[pid] == reg.players[pid].(points := reg.players[pid].points + points, level := Some(level), prestige := Some(prestige))
  {
    if pid in reg.players then
      var p := reg.players[pid];
      reg.(players := reg.players[pid := p.(points := p.points + points, level := Some(level), prestige := Some(prestige))])
    else reg
  }

  /** The body of `AddPoints` after identity resolution.  `randomTotal` is the
      random total reported for a requester without a record. */
  function ScoreRace(
    reg: Registry, pid: string, points: int, level: int, prestige: int,
    raceKey: Option<string>, now: int, randomTotal: int): (r: (Registry, PointsReply))
    requires MinStartPoints <= randomTotal <= MaxStartPoints
    ensures r.1.rank >= 1 && 0 <= r.1.division <= MaxDivision && r.1.season == ReplySeason
    ensures r.1.rank == Rank(r.1.points) && r.1.division == Division(r.1.rank)
    ensures pid !in reg.players ==> r.1.points == randomTotal
    ensures r.0.players.Keys == reg.players.Keys && r.0.order == reg.order && r.0.raceKeys == reg.raceKeys
    ensures pid in reg.players ==> r.1.points == r.0.players[pid].points
    ensures pid in reg.players ==> r.0.players[pid].level == Some(level) && r.0.players[pid].prestige == Some(prestige)
    ensures FindByRaceKey(reg, raceKey).None? ==> r.0 == Credit(reg, pid, points, level, prestige)
    ensures FindByRaceKey(reg, raceKey).Some? ==>
      var sid := FindByRaceKey(reg, raceKey).value;
      && r.0.games == reg.games[sid := reg.games[sid].(status := Finished, endedAt := Some(now), results := Some(RosterStandings(reg.games[sid].players)))]
  {
    var credited := Credit(reg, pid, points, level, prestige);
    var ended :=
      match FindByRaceKey(credited, raceKey)
      case None => credited
      case Some(sid) => EndGame(credited, sid, RosterStandings(credited.games[sid].players), now).reg;
    assert ended.players.Keys == reg.players.Keys;
    var total := if pid in ended.players then ended.players[pid].points else randomTotal;
    var rank := Rank(total);
    (ended, PointsReply(total, rank, Division(rank), ReplySeason))
  }

  /** Ending a race by its key: every registered roster player at place `i`
      gets one more game, no current game, `PlacementPoints(i + 1)` more
      points (plus the submitted points if it is the requester) and a win
      exactly when it is the first roster entry, the host.  Players off the
      roster keep their records, apart from the requester's credit. */
  lemma {:induction false} ScoreRaceSettles(
    reg: Registry, pid: string, points: int, level: int, prestige: int,
    raceKey: Option<string>, now: int, randomTotal: int)
    requires Valid(reg)
    requires MinStartPoints <= randomTotal <= MaxStartPoints
    requires FindByRaceKey(reg, raceKey).Some?
    ensures var sid := FindByRaceKey(reg, raceKey).value;
      var roster := reg.games[sid].players;
      var after := ScoreRace(reg, pid, points, level, prestige, raceKey, now, randomTotal).0;
      && (forall i :: 0 <= i < |roster| && roster[i].platformId in reg.players ==>
            var q := roster[i].platformId;
            && after.players[q].wins == reg.players[q].wins + (if i == 0 then 1 else 0)
            && after.players[q].points == reg.players[q].points + (if q == pid then points else 0) + PlacementPoints(i + 1)
            && after.players[q].totalGames == reg.players[q].totalGames + 1
            && after.players[q].currentGameId == None)
      && (forall q :: q in reg.players && q !in Ids(roster) && q != pid ==> after.players[q] == reg.players[q])
  {
    var sid := FindByRaceKey(reg, raceKey).value;
    var roster := reg.games[sid].players;
    var credited := Credit(reg, pid, points, level, prestige);
    assert FindByRaceKey(credited, raceKey) == Some(sid);
    var results := RosterStandings(roster);
    var after := ScoreRace(reg, pid, points, level, prestige, raceKey, now, randomTotal).0;
    assert after == EndGame(credited, sid, results, now).reg;
    assert GameOk(reg.games[sid]);
    forall i | 0 <= i < |roster| && roster[i].platformId in reg.players
      ensures after.players[roster[i].platformId].wins == reg.players[roster[i].platformId].wins + (if i == 0 then 1 else 0)
      ensures after.players[roster[i].platformId].points ==
        reg.players[roster[i].platformId].points + (if roster[i].platformId == pid then points else 0) + PlacementPoints(i + 1)
    {
      RosterStandingAt(roster, i);
      assert roster[i].platformId in Ids(roster);
    }
  }

  lemma {:induction false} ScoreRacePreservesValid(
    reg: Registry, pid: string, points: int, level: int, prestige: int,
    raceKey: Option<string>, now: int, randomTotal: int)
    requires Valid(reg)
    requires MinStartPoints <= randomTotal <= MaxStartPoints
    ensures Valid(ScoreRace(reg, pid, points, level, prestige, raceKey, now, randomTotal).0)
  {
    var credited := Credit(reg, pid, points, level, prestige);
    assert Valid(credited) by {
      forall q | q in credited.players && credited.players[q].currentGameId.Some?
        ensures RefOk(credited, q, credited.players[q].currentGameId.value)
      {
        assert RefOk(reg, q, reg.players[q].currentGameId.value);
      }
    }
    match FindByRaceKey(credited, raceKey)
    case None =>
    case Some(sid) => EndPreservesValid(credited, sid, RosterStandings(credited.games[sid].players), now);
  }
}

=== FILE: season.dfy ===
/** Season selection of the server-status document: a fixed schedule of
    season windows, each given by its first and last instant in milliseconds
    since the epoch (`new Date('2025-01-01')` is midnight UTC, so an end date
    admits only its first instant). */
module Season {
  import opened Common

  datatype Window = Window(season: int, start: int, end: int)

  const Schedule: seq<Window> := [
    Window(46, 1735689600000, 1739577600000), // 2025-01-01 .. 2025-02-15
    Window(47, 1740787200000, 1744675200000), // 2025-03-01 .. 2025-04-15
    Window(48, 1746057600000, 1749945600000), // 2025-05-01 .. 2025-06-15
    Window(49, 1751328000000, 1755216000000), // 2025-07-01 .. 2025-08-15
    Window(50, 1756684800000, 1760572800000), // 2025-09-01 .. 2025-10-16
    Window(51, 1761955200000, 1765843200000)  // 2025-11-01 .. 2025-12-16
  ]

  /** Season reported when no window contains the current time. */
  const DefaultSeason := 46
  /** Season reported when the season system is switched off. */
  const SeasonSystemOff := 45

  predicate Covers(w: Window, now: int) {
    w.start <= now <= w.end
  }

  /** The season of the first window containing `now`, scanning in order. */
  function FirstCovering(ws: seq<Window>, now: int): (r: Option<int>)
    ensures r.None? <==> forall i :: 0 <= i < |ws| ==> !Covers(ws[i], now)
    ensures r.Some? ==> exists i :: 0 <= i < |ws| && Covers(ws[i], now) && ws[i].season == r.value
    ensures r.Some? ==> r.value in (set w | w in ws :: w.season)
    decreases |ws|
  {
    if ws == [] then None
    else if Covers(ws[0], now) then Some(ws[0].season)
    else
      var r := FirstCovering(ws[1..], now);
      assert forall i :: 1 <= i < |ws| ==> ws[i] == ws[1..][i - 1];
      r
  }

  /** `getCurrentSeason()`. */
  function CurrentSeason(now: int): (s: int)
    ensures 46 <= s <= 51
  {
    var found := FirstCovering(Schedule, now);
    if found.Some? then found.value else DefaultSeason
  }

  /** Later windows start after earlier ones end. */
  predicate Chronological(ws: seq<Window>) {
    forall i, j :: 0 <= i < j < |ws| ==> ws[i].end < ws[j].start
  }

  lemma ScheduleChronological()
    ensures Chronological(Schedule)
    ensures forall i :: 0 <= i < |Schedule| ==> Schedule[i].start <= Schedule[i].end
  {
  }

  /** In a chronological schedule at most one window covers an instant, so the
      first covering window is the covering window. */
  lemma {:induction false} FirstCoveringIsCovering(ws: seq<Window>, now: int, i: int)
    requires Chronological(ws)
    requires 0 <= i < |ws| && Covers(ws[i], now)
    ensures FirstCovering(ws, now) == Some(ws[i].season)
    decreases |ws|
  {
    if i > 0 {
      assert ws[0].end < ws[i].start;
      assert Chronological(ws[1..]) by {
        forall a, b | 0 <= a < b < |ws[1..]| ensures ws[1..][a].end < ws[1..][b].start {
          assert ws[1..][a] == ws[a + 1] && ws[1..][b] == ws[b + 1];
        }
      }
      assert ws[1..][i - 1] == ws[i];
      FirstCoveringIsCovering(ws[1..], now, i - 1);
    }
  }

  /** Inside a scheduled window the current season is that window's season;
      outside every window it is the default. */
  lemma CurrentSeasonSpec(now: int)
    ensures forall i :: 0 <= i < |Schedule| && Covers(Schedule[i], now) ==> CurrentSeason(now) == Schedule[i].season
    ensures (forall i :: 0 <= i < |Schedule| ==> !Covers(Schedule[i], now)) ==> CurrentSeason(now) == DefaultSeason
  {
    ScheduleChronological();
    forall i | 0 <= i < |Schedule| && Covers(Schedule[i], now) ensures CurrentSeason(now) == Schedule[i].season {
      FirstCoveringIsCovering(Schedule, now, i);
    }
  }

  /** The `<Season>` of the server-status document. */
  function ReportedSeason(seasonSystem: bool, now: int): (s: int)
    ensures !seasonSystem ==> s == SeasonSystemOff
    ensures seasonSystem ==> 46 <= s <= 51
  {
    if seasonSystem then CurrentSeason(now) else SeasonSystemOff
  }
}

=== FILE: server.dfy ===
/** The matchmaking handlers of `server.js` as pure functions of the server
    state (the registry and the session-token map), the request fields, the
    client address, the clock and the random values the request may draw.
    A thrown exception that Express turns into an error response is the
    `InternalError` reply, with whatever the handler had already changed. */
module Server {
  import opened Common
  import opened GameSession
  import opened RegistryInvariant
  import opened Identity
  import opened Matchmaking
  import opened Scoring

  /** An active game whose age exceeds this is taken to be abandoned. */
  const StaleMs := 5 * 60 * 1000

  datatype ServerState = ServerState(reg: Registry, tokens: map<string, string>)

  /** A ranked battle request gets a canned reply and touches no state. */
  predicate IsBattleMode(req: MatchRequest) {
    req.gameType == Some("RankedBattle") && RuleSetOf(req) == "Battle"
  }

  /** The lobby ids are `const` bindings, so the code meant to default a
      missing one assigns to a constant and throws: a request lacking either
      id fails before identity resolution. */
  predicate LobbyIdsGiven(req: MatchRequest) {
    Truthy(req.groupLobbyId) && Truthy(req.gameLobbyId)
  }

  // ---------------------------------------------------------------------------
  // Identity resolution

  datatype Resolution = Resolved(pid: string, reg: Registry) | Refused(tokens: map<string, string>)

  /** The three identity cases of `EnterMatchmaking2`: a token mapped to a
      known player names it; a token mapped to an unknown player is dropped
      from the map and the request is refused; otherwise the fallback
      identity is used, re-registered (with the token) whenever a token was
      sent and registered only when absent when none was. */
  function ResolveIdentity(s: ServerState, token: Option<string>, ip: string, now: int, startPoints: int): (r: Resolution)
    requires MinStartPoints <= startPoints <= MaxStartPoints
    ensures r.Refused? <==> Mapped(s.tokens, token) && s.tokens[token.value] !in s.reg.players
    ensures r.Refused? ==> r.tokens == s.tokens - {token.value}
    ensures r.Resolved? ==>
      && r.pid == LookupIdentity(s.tokens, token, ip)
      && r.pid in r.reg.players
      && r.reg.games == s.reg.games && r.reg.order == s.reg.order && r.reg.raceKeys == s.reg.raceKeys
      && r.reg.players.Keys == s.reg.players.Keys + {r.pid}
      && (forall q :: q in s.reg.players && q != r.pid ==> r.reg.players[q] == s.reg.players[q])
    ensures r.Resolved? && r.pid in s.reg.players && (Mapped(s.tokens, token) || !Truthy(token)) ==> r.reg == s.reg
    ensures Truthy(token) && !Mapped(s.tokens, token) ==>
      var pid := FallbackId(ip);
      && r.Resolved?
      && r.reg.players[pid].currentGameId == None
      && r.reg.players[pid].sessionToken == token
      && r.reg.players[pid].displayName == GuestName(pid)
      && (pid in s.reg.players ==>
            && r.reg.players[pid].totalGames == s.reg.players[pid].totalGames + 1
            && r.reg.players[pid].points == s.reg.players[pid].points
            && r.reg.players[pid].wins == s.reg.players[pid].wins)
    ensures r.Resolved? && r.pid !in s.reg.players ==>
      && r.reg.players[r.pid].totalGames == 0 && r.reg.players[r.pid].wins == 0
      && r.reg.players[r.pid].currentGameId == None
  {
    if Truthy(token) then
      if Mapped(s.tokens, token) then
        var pid := s.tokens[token.value];
        if pid in s.reg.players then Resolved(pid, s.reg) else Refused(s.tokens - {token.value})
      else
        var pid := FallbackId(ip);
        Resolved(pid, RegisterPlayer(s.reg, pid, Some(GuestName(pid)), token, now, startPoints))
    else
      var pid := FallbackId(ip);
      if pid in s.reg.players then Resolved(pid, s.reg)
      else Resolved(pid, RegisterPlayer(s.reg, pid, Some(GuestName(pid)), None, now, startPoints))
  }

  // ---------------------------------------------------------------------------
  // The "already in a game?" check

  /** The instant a game's age counts from: its start time when that is set
      and not zero, otherwise its creation time. */
  function AgeBase(g: Game): (t: int)
    ensures t == g.createdAt || (g.startedAt == Some(t) && t != 0)
    ensures g.startedAt.Some? && g.startedAt.value != 0 ==> t == g.startedAt.value
  {
    if g.startedAt.Some? && g.startedAt.value != 0 then g.startedAt.value else g.createdAt
  }

  predicate Stale(g: Game, now: int) {
    g.status == Active && now - AgeBase(g) > StaleMs
  }

  /** Staleness only grows with time: an active game stale at `t` is stale at
      every later instant, and none is stale within the window after the
      instant its age counts from. */
  lemma StaleMonotone(g: Game, t: int, t': int)
    requires Stale(g, t) && t <= t'
    ensures Stale(g, t')
    ensures t' > AgeBase(g) + StaleMs
    ensures g.status == Active
  {
  }

  /** A game that has been given a nonzero start time is stale only once that
      much time has passed since its start, however old it is. */
  lemma StaleCountsFromStart(g: Game, now: int)
    requires g.status == Active && g.startedAt.Some? && g.startedAt.value != 0
    ensures Stale(g, now) <==> now - g.startedAt.value > StaleMs
  {
  }

  /** Whether the requester is sent back to its current game: it is, when
      that game is waiting, or active and not stale.  A stale game is marked
      finished (without an end time) and, like a finished or missing game,
      costs the requester its reference. */
  function ReuseCurrentGame(reg: Registry, pid: string, now: int): (r: (Registry, Option<int>))
    ensures r.0.order == reg.order && r.0.raceKeys == reg.raceKeys
    ensures r.0.players.Keys == reg.players.Keys
    ensures forall q :: q in reg.players && q != pid ==> r.0.players[q] == reg.players[q]
    ensures r.1.Some? <==>
      && pid in reg.players && HasGameRef(reg.players[pid])
      && var sid := reg.players[pid].currentGameId.value;
      && sid in reg.games
      && (reg.games[sid].status == Waiting || (reg.games[sid].status == Active && !Stale(reg.games[sid], now)))
    ensures r.1.Some? ==> r.0 == reg && r.1.value == reg.players[pid].currentGameId.value
    ensures r.1.None? && pid in reg.players && HasGameRef(reg.players[pid]) ==>
      r.0.players[pid] == reg.players[pid].(currentGameId := None)
    ensures r.1.None? && !(pid in reg.players && HasGameRef(reg.players[pid])) ==> r.0 == reg
    ensures forall sid :: sid in r.0.games <==> sid in reg.games
    ensures forall sid :: sid in reg.games ==>
      r.0.games[sid] == (if Stale(reg.games[sid], now) && pid in reg.players && reg.players[pid].currentGameId == Some(sid) && sid != 0
                         then reg.games[sid].(status := Finished) else reg.games[sid])
  {
    if pid in reg.players && HasGameRef(reg.players[pid]) then
      var p := reg.players[pid];
      var sid := p.currentGameId.value;
      var cleared := reg.(players := reg.players[pid := p.(currentGameId := None)]);
      if sid in reg.games && reg.games[sid].status == Waiting then (reg, Some(sid))
      else if sid in reg.games && reg.games[sid].status == Active then
        if Stale(reg.games[sid], now) then (cleared.(games := reg.games[sid := reg.games[sid].(status := Finished)]), None)
        else (reg, Some(sid))
      else (cleared, None)
    else (reg, None)
  }

  // ---------------------------------------------------------------------------
  // EnterMatchmaking2

  /** The reply sent when building the regular reply throws because the
      requester is missing from the roster of its game. */
  function FallbackReply(ent: Entropy): Reply {
    Matched(ent.replySessionId, ent.replyRaceKey, 1, true, 1, FallbackGameLobbyId, FallbackGroupLobbyId)
  }

  /** The regular reply: the game's session id, race key and roster size, the
      requester's host flag, team 0 and the request's lobby ids. */
  function ReplyFor(g: Game, pid: string, req: MatchRequest, ent: Entropy): (r: Reply)
    requires LobbyIdsGiven(req)
    ensures r.Matched?
    ensures pid in Ids(g.players) ==>
      && r.sessionId == g.sessionId && r.raceKey == g.raceKey && r.groupSize == |g.players|
      && r.team == 0 && r.gameLobbyId == req.gameLobbyId.value && r.groupLobbyId == req.groupLobbyId.value
      && exists e :: e in g.players && e.platformId == pid && r.isHost == e.isHost
    ensures pid !in Ids(g.players) ==> r == FallbackReply(ent)
  {
    match FindEntry(g.players, pid)
    case Some(entry) => Matched(g.sessionId, g.raceKey, |g.players|, entry.isHost, 0, req.gameLobbyId.value, req.groupLobbyId.value)
    case None => FallbackReply(ent)
  }

  /** The `EnterMatchmaking2` handler.  The request counter's second-request
      branch is not modelled. */
  function EnterMatchmaking(s: ServerState, req: MatchRequest, ip: string, now: int, ent: Entropy): (r: (ServerState, Reply))
    requires EntropyFits(s.reg, ent)
    ensures r.1.BattleMode? <==> IsBattleMode(req)
    ensures r.1 == InternalError <==> !IsBattleMode(req) && !LobbyIdsGiven(req)
    ensures r.1 == SessionExpired <==>
      !IsBattleMode(req) && LobbyIdsGiven(req) && Mapped(s.tokens, req.sessionToken) && s.tokens[req.sessionToken.value] !in s.reg.players
    ensures r.1.BattleMode? || r.1 == InternalError ==> r.0 == s
    ensures r.1.BattleMode? ==>
      && r.1.sessionId == ent.replySessionId && r.1.raceKey == ent.replyRaceKey
      && r.1.groupSize == 1 && r.1.isHost && r.1.team == 1 && r.1.hostPlatformId == BattleHostPlatformId
      && r.1.echoedGameLobbyId == req.gameLobbyId && r.1.echoedGroupLobbyId == req.groupLobbyId
      && r.1.gameType == "RankedBattle"
    ensures r.1 == SessionExpired ==> r.0 == ServerState(s.reg, s.tokens - {req.sessionToken.value})
    ensures r.1.Matched? ==> r.0.tokens == s.tokens && s.reg.raceKeys <= r.0.reg.raceKeys
    ensures r.1.Matched? ==> r.1.team == 0 || r.1 == FallbackReply(ent)
    ensures r.1.Matched? ==>
      forall q :: q in s.reg.players && q != LookupIdentity(s.tokens, req.sessionToken, ip) ==>
        q in r.0.reg.players && r.0.reg.players[q] == s.reg.players[q]
  {
    if IsBattleMode(req) then
      (s, BattleMode(ent.replySessionId, ent.replyRaceKey, 1, true, 1, BattleHostPlatformId,
                     req.gameLobbyId, req.groupLobbyId, req.gameType.value))
    else if !LobbyIdsGiven(req) then (s, InternalError)
    else
      match ResolveIdentity(s, req.sessionToken, ip, now, ent.startPoints)
      case Refused(tokens) => (ServerState(s.reg, tokens), SessionExpired)
      case Resolved(pid, reg1) =>
        var (reg2, reuse) := ReuseCurrentGame(reg1, pid, now);
        if reuse.Some? then (ServerState(reg2, s.tokens), ReplyFor(reg2.games[reuse.value], pid, req, ent))
        else
          var e := JoinOrCreate(reg2, pid, req.gameType, RuleSetOf(req), RankingOf(req), req.gameLobbyId, req.groupLobbyId, now, ent.draws);
          assert e.result.Ok?;
          (ServerState(e.reg, s.tokens), ReplyFor(e.result.value, pid, req, ent))
  }

  // ---------------------------------------------------------------------------
  // Properties of EnterMatchmaking2

  /** The requester's own record is left alone by identity resolution. */
  predicate KnownRequester(s: ServerState, token: Option<string>, ip: string) {
    (Mapped(s.tokens, token) || !Truthy(token)) && LookupIdentity(s.tokens, token, ip) in s.reg.players
  }

  lemma {:induction false} ResolvePreservesValid(s: ServerState, token: Option<string>, ip: string, now: int, startPoints: int)
    requires Valid(s.reg) && MinStartPoints <= startPoints <= MaxStartPoints
    ensures var r := ResolveIdentity(s, token, ip, now, startPoints);
      r.Resolved? ==> Valid(r.reg)
  {
    var pid := FallbackId(ip);
    if Truthy(token) && !Mapped(s.tokens, token) {
      RegisterPreservesValid(s.reg, pid, Some(GuestName(pid)), token, now, startPoints);
    } else if !Truthy(token) && pid !in s.reg.players {
      RegisterPreservesValid(s.reg, pid, Some(GuestName(pid)), None, now, startPoints);
    }
  }

  /** Clearing one player's current-game reference keeps the invariant. */
  lemma ClearRefPreservesValid(reg: Registry, pid: string)
    requires Valid(reg) && pid in reg.players
    ensures Valid(reg.(players := reg.players[pid := reg.players[pid].(currentGameId := None)]))
  {
    var r := reg.(players := reg.players[pid := reg.players[pid].(currentGameId := None)]);
    forall q | q in r.players && r.players[q].currentGameId.Some?
      ensures RefOk(r, q, r.players[q].currentGameId.value)
    {
      assert RefOk(reg, q, r.players[q].currentGameId.value);
    }
  }

  /** Marking a game finished, without an end time, keeps the invariant. */
  lemma FinishPreservesValid(reg: Registry, sid: int)
    requires Valid(reg) && sid in reg.games
    ensures Valid(reg.(games := reg.games[sid := reg.games[sid].(status := Finished)]))
  {
    var r := reg.(games := reg.games[sid := reg.games[sid].(status := Finished)]);
    forall x | x in r.games ensures GameOk(r.games[x]) && r.games[x].raceKey == reg.games[x].raceKey {
      assert GameOk(reg.games[x]);
    }
    forall a, b | a in r.games && b in r.games && a != b ensures r.games[a].raceKey != r.games[b].raceKey {
      assert r.games[a].raceKey == reg.games[a].raceKey && r.games[b].raceKey == reg.games[b].raceKey;
    }
    forall q | q in r.players && r.players[q].currentGameId.Some?
      ensures RefOk(r, q, r.players[q].currentGameId.value)
    {
      var x := r.players[q].currentGameId.value;
      assert RefOk(reg, q, x);
      assert r.games[x].players == reg.games[x].players && r.games[x].endedAt == reg.games[x].endedAt;
    }
  }

  lemma {:induction false} ReusePreservesValid(reg: Registry, pid: string, now: int)
    requires Valid(reg)
    ensures Valid(ReuseCurrentGame(reg, pid, now).0)
  {
    if pid in reg.players && HasGameRef(reg.players[pid]) {
      var p := reg.players[pid];
      var sid := p.currentGameId.value;
      var cleared := reg.(players := reg.players[pid := p.(currentGameId := None)]);
      ClearRefPreservesValid(reg, pid);
      if sid in reg.games && reg.games[sid].status == Active && Stale(reg.games[sid], now) {
        FinishPreservesValid(cleared, sid);
        assert ReuseCurrentGame(reg, pid, now).0 == cleared.(games := cleared.games[sid := cleared.games[sid].(status := Finished)]);
      }
    }
  }


  /** Under the invariant, and with unused session ids in the draws, a
      matchmaking request keeps the invariant. */
  lemma {:induction false} EnterPreservesValid(s: ServerState, req: MatchRequest, ip: string, now: int, ent: Entropy)
    requires Valid(s.reg) && EntropyFits(s.reg, ent)
    requires ent.draws.create.sessionId !in s.reg.games && ent.draws.fallback.sessionId !in s.reg.games
    ensures Valid(EnterMatchmaking(s, req, ip, now, ent).0.reg)
  {
    if !IsBattleMode(req) && LobbyIdsGiven(req) {
      var res := ResolveIdentity(s, req.sessionToken, ip, now, ent.startPoints);
      if res.Resolved? {
        ResolvePreservesValid(s, req.sessionToken, ip, now, ent.startPoints);
        ReusePreservesValid(res.reg, res.pid, now);
        var (reg2, reuse) := ReuseCurrentGame(res.reg, res.pid, now);
        if reuse.None? {
          JoinOrCreatePreservesValid(reg2, res.pid, req.gameType, RuleSetOf(req), RankingOf(req), req.gameLobbyId, req.groupLobbyId, now, ent.draws);
        }
      }
    }
  }

  /** A request that is neither a battle, nor missing a lobby id, nor
      refused gets the regular reply for a stored game whose roster holds
      the requester: never the fallback reply, and always team 0. */
  lemma {:induction false} EnterRostersRequester(s: ServerState, req: MatchRequest, ip: string, now: int, ent: Entropy)
    requires Valid(s.reg) && EntropyFits(s.reg, ent)
    requires !IsBattleMode(req) && LobbyIdsGiven(req)
    requires !(Mapped(s.tokens, req.sessionToken) && s.tokens[req.sessionToken.value] !in s.reg.players)
    ensures var pid := LookupIdentity(s.tokens, req.sessionToken, ip);
      var r := EnterMatchmaking(s, req, ip, now, ent);
      && r.1.Matched?
      && r.1.sessionId in r.0.reg.games
      && var g := r.0.reg.games[r.1.sessionId];
      && pid in Ids(g.players)
      && r.1.raceKey == g.raceKey && r.1.groupSize == |g.players| && r.1.team == 0
      && r.1.gameLobbyId == req.gameLobbyId.value && r.1.groupLobbyId == req.groupLobbyId.value
      && (exists e :: e in g.players && e.platformId == pid && r.1.isHost == e.isHost)
  {
    var res := ResolveIdentity(s, req.sessionToken, ip, now, ent.startPoints);
    var pid := res.pid;
    ResolvePreservesValid(s, req.sessionToken, ip, now, ent.startPoints);
    ReusePreservesValid(res.reg, pid, now);
    var (reg2, reuse) := ReuseCurrentGame(res.reg, pid, now);
    if reuse.Some? {
      var sid := reuse.value;
      assert RefOk(res.reg, pid, sid);
    } else {
      JoinOrCreateStored(reg2, pid, req.gameType, RuleSetOf(req), RankingOf(req), req.gameLobbyId, req.groupLobbyId, now, ent.draws);
    }
  }

  /** A known requester whose current game is waiting, or active and fresh,
      gets that game back and nothing changes. */
  lemma {:induction false} ReconnectReturnsCurrentGame(s: ServerState, req: MatchRequest, ip: string, now: int, ent: Entropy)
    requires Valid(s.reg) && EntropyFits(s.reg, ent)
    requires !IsBattleMode(req) && LobbyIdsGiven(req) && KnownRequester(s, req.sessionToken, ip)
    requires var p := s.reg.players[LookupIdentity(s.tokens, req.sessionToken, ip)];
      && HasGameRef(p) && p.currentGameId.value in s.reg.games
      && var g := s.reg.games[p.currentGameId.value];
      && (g.status == Waiting || (g.status == Active && !Stale(g, now)))
    ensures var sid := s.reg.players[LookupIdentity(s.tokens, req.sessionToken, ip)].currentGameId.value;
      var r := EnterMatchmaking(s, req, ip, now, ent);
      && r.0 == s
      && r.1.Matched? && r.1.sessionId == sid && r.1.raceKey == s.reg.games[sid].raceKey
      && r.1.groupSize == |s.reg.games[sid].players|
  {
    var pid := LookupIdentity(s.tokens, req.sessionToken, ip);
    var sid := s.reg.players[pid].currentGameId.value;
    assert RefOk(s.reg, pid, sid);
  }

  /** A known requester whose current game is active and stale is matched
      into another game.  The stale game stays registered, marked finished
      but without an end time, so the retention sweep skips it until a race
      report carrying its key ends it; the other players keep their records,
      references to it included. */
  lemma {:induction false} StaleGameAbandoned(s: ServerState, req: MatchRequest, ip: string, now: int, ent: Entropy)
    requires Valid(s.reg) && EntropyFits(s.reg, ent)
    requires ent.draws.create.sessionId !in s.reg.games && ent.draws.fallback.sessionId !in s.reg.games
    requires !IsBattleMode(req) && LobbyIdsGiven(req) && KnownRequester(s, req.sessionToken, ip)
    requires var p := s.reg.players[LookupIdentity(s.tokens, req.sessionToken, ip)];
      HasGameRef(p) && p.currentGameId.value in s.reg.games && Stale(s.reg.games[p.currentGameId.value], now)
    ensures var pid := LookupIdentity(s.tokens, req.sessionToken, ip);
      var sid := s.reg.players[pid].currentGameId.value;
      var r := EnterMatchmaking(s, req, ip, now, ent);
      && sid in r.0.reg.games
      && r.0.reg.games[sid] == s.reg.games[sid].(status := Finished)
      && (forall t :: !Expired(r.0.reg.games[sid], t))
      && r.1.Matched? && r.1.sessionId != sid
      && (forall q :: q in s.reg.players && q != pid ==> r.0.reg.players[q] == s.reg.players[q])
  {
    var pid := LookupIdentity(s.tokens, req.sessionToken, ip);
    var sid := s.reg.players[pid].currentGameId.value;
    assert RefOk(s.reg, pid, sid);
    ReusePreservesValid(s.reg, pid, now);
    var (reg2, reuse) := ReuseCurrentGame(s.reg, pid, now);
    assert reg2.games[sid] == s.reg.games[sid].(status := Finished);
    var avail := GetAvailableGames(reg2, req.gameType, Some(RankingOf(req)));
    if avail != [] {
      JoinOrCreateJoins(reg2, pid, req.gameType, RuleSetOf(req), RankingOf(req), req.gameLobbyId, req.groupLobbyId, now, ent.draws);
      NewestAvailable(reg2, req.gameType, Some(RankingOf(req)));
      assert avail[0].sessionId != sid;
    } else {
      JoinOrCreateCreates(reg2, pid, req.gameType, RuleSetOf(req), RankingOf(req), req.gameLobbyId, req.groupLobbyId, now, ent.draws);
    }
  }

  /** A token the map does not know re-registers the fallback identity on
      every request: one more game is counted, points and wins are kept, and
      the record now carries the token. */
  lemma {:induction false} UnmappedTokenReregisters(s: ServerState, req: MatchRequest, ip: string, now: int, ent: Entropy)
    requires EntropyFits(s.reg, ent)
    requires !IsBattleMode(req) && LobbyIdsGiven(req)
    requires Truthy(req.sessionToken) && !Mapped(s.tokens, req.sessionToken)
    requires FallbackId(ip) in s.reg.players
    ensures var pid := FallbackId(ip);
      var r := EnterMatchmaking(s, req, ip, now, ent);
      && r.0.reg.players[pid].totalGames == s.reg.players[pid].totalGames + 1
      && r.0.reg.players[pid].points == s.reg.players[pid].points
      && r.0.reg.players[pid].wins == s.reg.players[pid].wins
      && r.0.reg.players[pid].sessionToken == req.sessionToken
  {
    var res := ResolveIdentity(s, req.sessionToken, ip, now, ent.startPoints);
    var (reg2, reuse) := ReuseCurrentGame(res.reg, res.pid, now);
    assert reg2 == res.reg;
  }

  // ---------------------------------------------------------------------------
  // CancelMatchmaking

  /** The roster without the entries of `pid`, in the same order. */
  function RemoveFromRoster(roster: seq<RosterEntry>, pid: string): (r: seq<RosterEntry>)
    ensures forall e :: e in r <==> e in roster && e.platformId != pid
    ensures |r| <= |roster|
    decreases |roster|
  {
    if roster == [] then []
    else
      var rest := RemoveFromRoster(roster[1..], pid);
      assert forall e :: e in roster <==> e == roster[0] || e in roster[1..];
      if roster[0].platformId == pid then rest else [roster[0]] + rest
  }

  /** Filtering works piece by piece, so the entries that stay keep their
      relative order: filtering a roster split anywhere is filtering each part. */
  lemma {:induction false} RemoveFromRosterAppend(a: seq<RosterEntry>, b: seq<RosterEntry>, pid: string)
    ensures RemoveFromRoster(a + b, pid) == RemoveFromRoster(a, pid) + RemoveFromRoster(b, pid)
    decreases |a|
  {
    if a != [] {
      assert (a + b)[1..] == a[1..] + b;
      RemoveFromRosterAppend(a[1..], b, pid);
    } else {
      assert a + b == b;
    }
  }

  /** A single entry stays exactly when it is not the requester's. */
  lemma RemoveFromRosterSingle(e: RosterEntry, pid: string)
    ensures RemoveFromRoster([e], pid) == if e.platformId == pid then [] else [e]
  {
    assert [e][1..] == [];
  }

  lemma IdsMember(roster: seq<RosterEntry>, q: string)
    ensures q in Ids(roster) <==> exists e :: e in roster && e.platformId == q
  {
    if q in Ids(roster) {
      var i :| 0 <= i < |roster| && Ids(roster)[i] == q;
      assert roster[i] in roster;
    }
  }

  /** Filtering drops exactly the requester's id. */
  lemma RemoveFromRosterIds(roster: seq<RosterEntry>, pid: string)
    ensures forall q :: q in Ids(RemoveFromRoster(roster, pid)) <==> q in Ids(roster) && q != pid
  {
    var r := RemoveFromRoster(roster, pid);
    forall q ensures q in Ids(r) <==> q in Ids(roster) && q != pid {
      IdsMember(r, q);
      IdsMember(roster, q);
    }
  }

  /** A roster without repeated ids has none after filtering. */
  lemma {:induction false} RemoveFromRosterNoDup(roster: seq<RosterEntry>, pid: string)
    requires NoDup(Ids(roster))
    ensures NoDup(Ids(RemoveFromRoster(roster, pid)))
    decreases |roster|
  {
    if roster != [] {
      var r := RemoveFromRoster(roster, pid);
      var tail := roster[1..];
      var rest := RemoveFromRoster(tail, pid);
      assert Ids(tail) == Ids(roster)[1..];
      RemoveFromRosterNoDup(tail, pid);
      if roster[0].platformId != pid {
        RemoveFromRosterIds(tail, pid);
        assert roster[0].platformId !in Ids(tail);
        assert roster[0].platformId !in Ids(rest);
        assert Ids(r) == [roster[0].platformId] + Ids(rest);
      }
    }
  }

  /** The part of `CancelMatchmaking` both versions share: a requester whose
      current game is waiting leaves its roster and loses its reference;
      the session id left is returned. */
  function Leave(reg: Registry, pid: string): (r: (Registry, Option<int>))
    ensures r.1.Some? <==>
      pid in reg.players && HasGameRef(reg.players[pid])
      && reg.players[pid].currentGameId.value in reg.games
      && reg.games[reg.players[pid].currentGameId.value].status == Waiting
    ensures r.1.None? ==> r.0 == reg
    ensures r.1.Some? ==>
      var sid := r.1.value;
      && sid == reg.players[pid].currentGameId.value
      && r.0.order == reg.order && r.0.raceKeys == reg.raceKeys
      && r.0.games.Keys == reg.games.Keys
      && (forall x :: x in reg.games && x != sid ==> r.0.games[x] == reg.games[x])
      && r.0.games[sid] == reg.games[sid].(players := r.0.games[sid].players)
      && (forall q :: q in Ids(r.0.games[sid].players) <==> q in Ids(reg.games[sid].players) && q != pid)
      && (forall e :: e in r.0.games[sid].players <==> e in reg.games[sid].players && e.platformId != pid)
      && r.0.games[sid].players == RemoveFromRoster(reg.games[sid].players, pid)
      && r.0.players == reg.players[pid := reg.players[pid].(currentGameId := None)]
  {
    if pid in reg.players && HasGameRef(reg.players[pid]) then
      var p := reg.players[pid];
      var sid := p.currentGameId.value;
      if sid in reg.games && reg.games[sid].status == Waiting then
        var g := reg.games[sid];
        RemoveFromRosterIds(g.players, pid);
        (reg.(games := reg.games[sid := g.(players := RemoveFromRoster(g.players, pid))],
              players := reg.players[pid := p.(currentGameId := None)]), Some(sid))
      else (reg, None)
    else (reg, None)
  }

  /** The handler as written: the delete of an emptied game looks up the
      reference it has just cleared, so it removes nothing. */
  function CancelAsWritten(reg: Registry, pid: string): (r: Registry)
    ensures r.games.Keys == reg.games.Keys && r.order == reg.order
  {
    Leave(reg, pid).0
  }

  /** The handler as evidently intended: a game its last player leaves is
      deleted (its race key stays in the key set, as in the handler). */
  function CancelCorrected(reg: Registry, pid: string): (r: Registry)
    ensures r.raceKeys == reg.raceKeys && r.players == Leave(reg, pid).0.players
    ensures Leave(reg, pid).1.None? ==> r == reg
    ensures Leave(reg, pid).1.Some? ==>
      var sid := Leave(reg, pid).1.value;
      var left := Leave(reg, pid).0.games[sid];
      && (left.players == [] ==>
            && r.games == reg.games - {sid}
            && (forall x :: x in r.order <==> x in reg.order && x != sid))
      && (left.players != [] ==> r.games == reg.games[sid := left] && r.order == reg.order)
    ensures NoDup(reg.order) ==> NoDup(r.order)
  {
    var (left, sid) := Leave(reg, pid);
    if sid.Some? && left.games[sid.value].players == [] then
      left.(games := left.games - {sid.value}, order := WithoutIds(left.order, {sid.value}))
    else left
  }

  /** No waiting game has an empty roster: every waiting game the matcher
      can hand out has a host to play with. */
  ghost predicate NoEmptyWaiting(reg: Registry) {
    forall sid :: sid in reg.games && reg.games[sid].status == Waiting ==> reg.games[sid].players != []
  }

  lemma {:induction false} CancelCorrectedPreservesValid(reg: Registry, pid: string)
    requires Valid(reg)
    ensures Valid(CancelCorrected(reg, pid))
  {
    var (left, sidOpt) := Leave(reg, pid);
    var r := CancelCorrected(reg, pid);
    if sidOpt.Some? {
      var sid := sidOpt.value;
      var g := reg.games[sid];
      assert GameOk(g);
      RemoveFromRosterNoDup(g.players, pid);
      assert GameOk(left.games[sid]);
      forall x | x in r.games ensures GameOk(r.games[x]) && r.games[x].raceKey == reg.games[x].raceKey {
        assert GameOk(reg.games[x]);
      }
      forall a, b | a in r.games && b in r.games && a != b ensures r.games[a].raceKey != r.games[b].raceKey {
        assert r.games[a].raceKey == reg.games[a].raceKey && r.games[b].raceKey == reg.games[b].raceKey;
      }
      forall q | q in r.players && r.players[q].currentGameId.Some?
        ensures RefOk(r, q, r.players[q].currentGameId.value)
      {
        var s := r.players[q].currentGameId.value;
        assert q != pid;
        assert RefOk(reg, q, s);
        if s == sid {
          assert q in Ids(left.games[sid].players);
        }
      }
    }
  }

  /** The handler as written keeps the registry invariant too: the emptied
      game it fails to delete is still a well-formed (empty) waiting game. */
  lemma {:induction false} CancelAsWrittenPreservesValid(reg: Registry, pid: string)
    requires Valid(reg)
    ensures Valid(CancelAsWritten(reg, pid))
  {
    var (left, sidOpt) := Leave(reg, pid);
    var r := CancelAsWritten(reg, pid);
    if sidOpt.Some? {
      var sid := sidOpt.value;
      var g := reg.games[sid];
      assert GameOk(g);
      RemoveFromRosterNoDup(g.players, pid);
      assert GameOk(left.games[sid]);
      forall x | x in r.games ensures GameOk(r.games[x]) && r.games[x].raceKey == reg.games[x].raceKey {
        assert GameOk(reg.games[x]);
      }
      forall a, b | a in r.games && b in r.games && a != b ensures r.games[a].raceKey != r.games[b].raceKey {
        assert r.games[a].raceKey == reg.games[a].raceKey && r.games[b].raceKey == reg.games[b].raceKey;
      }
      forall q | q in r.players && r.players[q].currentGameId.Some?
        ensures RefOk(r, q, r.players[q].currentGameId.value)
      {
        var s := r.players[q].currentGameId.value;
        assert q != pid;
        assert RefOk(reg, q, s);
        if s == sid {
          assert q in Ids(left.games[sid].players);
        }
      }
    }
  }

  /** Cancelling as evidently intended never leaves an empty waiting game. */
  lemma {:induction false} CancelCorrectedNoEmptyWaiting(reg: Registry, pid: string)
    requires NoEmptyWaiting(reg)
    ensures NoEmptyWaiting(CancelCorrected(reg, pid))
  {
    var (left, sidOpt) := Leave(reg, pid);
    var r := CancelCorrected(reg, pid);
    forall x | x in r.games && r.games[x].status == Waiting ensures r.games[x].players != [] {
      assert x in reg.games;
      if sidOpt.Some? && x == sidOpt.value {
        assert r.games[x] == left.games[x];
      }
    }
  }

  const WitnessSession := 1000000
  const WitnessPlayerId := "player_127_0_0_1"

  /** One waiting game hosted by its only player, who refers to it. */
  function CancelWitness(): (reg: Registry)
    ensures WitnessSession in reg.games && WitnessPlayerId in reg.players
  {
    var entry := RosterEntry(WitnessPlayerId, "Player_127_0_0_", 0, true, 0);
    var g := Game(WitnessSession, "K", "L", "G", WitnessPlayerId, "Player_127_0_0_", "Race", "Race", "NotRanked",
                  Waiting, [entry], MaxPlayers, 0, None, None, None, NetworkVersion);
    var p := Player(WitnessPlayerId, "Player_127_0_0_", None, 0, true, Some(WitnessSession), 0, 0, 1000, None, None);
    Registry(map[WitnessSession := g], [WitnessSession], map[WitnessPlayerId := p], {"K"})
  }

  /** When the last player of a waiting game cancels, the game as written
      stays registered, waiting, with an empty roster, and the matcher offers
      it to the next request; as evidently intended it is gone. */
  lemma CancelEmptiedGameStays()
    ensures Valid(CancelWitness()) && NoEmptyWaiting(CancelWitness())
    ensures var r := CancelAsWritten(CancelWitness(), WitnessPlayerId);
      && WitnessSession in r.games
      && r.games[WitnessSession].status == Waiting && r.games[WitnessSession].players == []
      && !NoEmptyWaiting(r)
      && r.games[WitnessSession] in GetAvailableGames(r, None, None)
    ensures WitnessSession !in CancelCorrected(CancelWitness(), WitnessPlayerId).games
  {
    var reg := CancelWitness();
    assert Ids(reg.games[WitnessSession].players) == [WitnessPlayerId];
    var r := CancelAsWritten(reg, WitnessPlayerId);
    assert Ids(r.games[WitnessSession].players) == [];
    assert WellFormed(r);
    assert Available(r.games[WitnessSession], None, None);
  }

  /** `CancelMatchmaking`, with the corrected delete. */
  function CancelMatchmaking(s: ServerState, token: Option<string>, ip: string): (r: ServerState)
    ensures r.tokens == s.tokens
    ensures r.reg.raceKeys == s.reg.raceKeys && r.reg.players.Keys == s.reg.players.Keys
    ensures var pid := LookupIdentity(s.tokens, token, ip);
      && (forall q :: q in s.reg.players && q != pid ==> r.reg.players[q] == s.reg.players[q])
      && (pid in s.reg.players ==> r.reg.players[pid].currentGameId == None || r.reg == s.reg)
      && (forall sid :: sid in r.reg.games ==> sid in s.reg.games && (pid !in Ids(r.reg.games[sid].players) || r.reg.games[sid] == s.reg.games[sid]))
  {
    ServerState(CancelCorrected(s.reg, LookupIdentity(s.tokens, token, ip)), s.tokens)
  }

  // ---------------------------------------------------------------------------
  // AddPoints

  /** `AddPoints`: the requester is found through the token map or the
      fallback identity, never registered, and the race is scored. */
  function AddPoints(s: ServerState, req: PointsRequest, ip: string, now: int, randomTotal: int): (r: (ServerState, PointsReply))
    requires MinStartPoints <= randomTotal <= MaxStartPoints
    ensures r.0.tokens == s.tokens
    ensures r.0.reg.players.Keys == s.reg.players.Keys
    ensures var pid := LookupIdentity(s.tokens, req.sessionToken, ip);
      && (pid in s.reg.players ==> r.1.points == r.0.reg.players[pid].points)
      && (pid !in s.reg.players ==> r.1.points == randomTotal)
    ensures r.1.rank == Rank(r.1.points) && r.1.division == Division(r.1.rank) && r.1.season == ReplySeason
  {
    var pid := LookupIdentity(s.tokens, req.sessionToken, ip);
    var (reg, reply) := ScoreRace(
      s.reg, pid, IntOr(req.points, DefaultPoints), IntOr(req.level, DefaultLevel), IntOr(req.prestige, DefaultPrestige),
      req.raceKey, now, randomTotal);
    (ServerState(reg, s.tokens), reply)
  }
}
